=== FILE: README.md ===
# Game-event dashboard ledger, in Dafny

This project models the event pipeline of a small game dashboard. Game clients post
**attack** and **dash** events to HTTP routes. The server normalises each event into a
stored record and keeps it in a bounded, newest-first, in-memory **ledger** of at most
100 records. It then dispatches the raw body to a **handler** registered for the event
type. A **stats** endpoint reduces a snapshot of the ledger to counts and two rounded
success rates. In the browser, a **client reconciler** keeps its own list of locally
simulated events and merges it with the server's list on every poll, deduplicating
by id. It also recomputes the dashboard counters. The **event log** renders each
event as a sentence and a Hit/Miss badge.

Modules, one file each:

| file | module | models |
|---|---|---|
| `js.dfy` | `Js` | JavaScript values, records, truthiness, `\|\|`, `??`, `filter(p).length`, `String(v)` on strings, integers and the constants |
| `ledger.dfy` | `Ledger` | `src/lib/eventsStore.ts` |
| `stats.dfy` | `Stats` | `src/app/api/events/stats/route.ts` |
| `registry.dfy` | `Registry` | `src/lib/events.ts` and `src/app/api/events/handlers.ts` (same semantics, one model) |
| `paths.dfy` | `Paths` | `split('/')`, `pop()`, `filter(Boolean)`, `indexOf` on URL paths |
| `ingest.dfy` | `Ingest` | the attack, dash and generic `POST` routes |
| `server.dfy` | `Server` | the server's shared state and the requests served against it |
| `merge.dfy` | `Merge` | the `Map`-based dedupe-merge in `fetchEvents` |
| `client.dfy` | `Client` | `src/contexts/GameEventsContext.tsx` state updates |
| `eventlog.dfy` | `EventLog` | `formatEventDetails` and the Hit/Miss badge |

Modelling choices:

- A record (stored event, request body, client event) is a `map<string, Value>`.
  Reading an absent key gives `Undefined`, as property access does.
- Numbers are integers.
- Generated ids, timestamps and random draws are parameters (`Client.Draws`).
- A failure inside a route's storing block is a boolean `storeFault`. That failure is
  logged and swallowed, so the ledger stays unchanged.
- A handler is a total function from the body to `Returned(message, status)` or
  `Threw(error)`.
- The ledger's `unshift` + `splice(100)` and the client's `[e, ...prev].slice(0, 100)`
  are the same operation, `Ledger.Prepend`.
- A JavaScript `Map` is modelled as an insertion-ordered list of entries:
  - `set` on a present key overwrites the entry in place;
  - `set` on a new key appends.

  `Merge.SetAllIsMerge` proves that this list is exactly the reference merge. That
  reference has one entry per id, holding the last event with that id, ordered by the
  first occurrence of the id.

In these places the model follows the code where a reader might expect otherwise:

- The attack type takes the path segment after `attack` before `body.type`.
- The merge is not re-sorted by time.
- After a poll, the counters come from the server's list only, even though the
  comment says "combined events".
- The store does not deduplicate ids at all.

## Model

| member | source | states |
|---|---|---|
| `Js.Truthy` | src/components/dashboard/EventLog.tsx:38-39 | falsy exactly for undefined, null, false, 0 and the empty string; every object or array is truthy |
| `Js.Or` | src/app/api/events/attack/route.ts:32-34 | `a \|\| b` is `a` when `a` is truthy, else `b`; the result is truthy iff either operand is |
| `Js.Coalesce` | src/contexts/GameEventsContext.tsx:55 | `a ?? b` is `b` only for null and undefined, so an explicit `false` is kept |
| `Js.IntText` | src/components/dashboard/EventLog.tsx:19 | an integer prints as `-` for a negative value, then the canonical decimal numeral of its magnitude: no leading zero except for 0 itself, and it reads back as the magnitude |
| `Js.Text` | src/components/dashboard/EventLog.tsx:19-22 | a string prints as itself; an integer prints as its canonical numeral as above; undefined, null, booleans and objects print as 'undefined', 'null', 'true'/'false' and '[object Object]'; only the empty string prints empty |
| `Js.NatTextRoundTrip` | src/components/dashboard/EventLog.tsx:19 | the decimal text of a non-negative integer reads back as that integer |
| `Ledger.Prepend` | src/lib/eventsStore.ts:10-15 | the new event is first, length is min(old + 1, 100), every old entry moves one place back |
| `Ledger.Add` | src/lib/eventsStore.ts:10-15 | adding keeps the ledger within the 100-entry capacity |
| `Ledger.AddKeepsOrder` | src/lib/eventsStore.ts:12-14 | after an add the old entries follow in their old order; only the oldest is dropped, and only when the ledger was full |
| `Ledger.AddKeepsDuplicateIds` | src/lib/eventsStore.ts:10-15 | two events with the same id are both kept, newest first |
| `Ledger.FindId` | src/lib/eventsStore.ts:26 | the result is the first position whose id matches, or none when no id matches |
| `Ledger.Ignore` | src/lib/eventsStore.ts:29 | `ignored` becomes true and every other field is unchanged |
| `Ledger.MarkIgnored` | src/lib/eventsStore.ts:25-33 | returns true iff some event has the id; only the first match is flagged; length, order and other events unchanged; on false nothing changes |
| `Stats.RoundPercent` | src/app/api/events/stats/route.ts:48-50 | the result is the integer nearest to 100h/d, with halves rounded up (`Math.round` for non-negative values) |
| `Stats.RoundPercentBounded` | src/app/api/events/stats/route.ts:29-30 | a rounded percentage of a part no larger than the whole lies in [0, 100] |
| `Stats.Reconcile` | src/app/api/events/stats/route.ts:24-36 | leftover starts are max(0, started − hits); real misses are explicit misses plus leftovers; each rate is null exactly on a zero denominator, and otherwise the rounded percentage of hits over that denominator; the success rate is within [0, 100]; the user rate is non-negative but unclamped |
| `Stats.Compute` | src/app/api/events/stats/route.ts:6-51 | counts attacks, dashes, `hit === true`, `silent === true`; attacks + dashes ≤ snapshot size; hits + explicit misses = attacksWithHit ≤ attacks; leftover starts = max(0, started − hits); real misses = explicit misses + leftover starts; successRate null iff no hit, no explicit miss and no start; user rate null iff every attack is a hit |
| `Stats.ComputeRates` | src/app/api/events/stats/route.ts:29-36 | each non-null rate the route reports is the rounded percentage of its own reported counts: hits over hits + real misses, and hits over attacks − hits, each denominator positive |
| `Stats.AttackDashDisjoint` | src/app/api/events/stats/route.ts:8-12 | attack and dash counts together never exceed the snapshot length |
| `Stats.HitsAndMissesPartition` | src/app/api/events/stats/route.ts:15-44 | `hit === true` and `hit === false` attacks together are exactly the attacks with a boolean `hit`, at most all attacks |
| `Stats.HitsAreAttacks` | src/app/api/events/stats/route.ts:15 | successful hits never exceed attacks, and are equal iff every attack is a hit |
| `Stats.SameClassificationSameStats` | src/app/api/events/stats/route.ts:8-21 | the statistics depend only on each record's `type`, `hit` and `silent` |
| `Stats.MarkIgnoredKeepsStats` | src/lib/eventsStore.ts:25-33 | marking an event ignored changes no statistic, since the stats route does not look at the flag |
| `Stats.ReconciliationExample` | src/app/api/events/stats/route.ts:21-48 | two silent starts, one hit and one explicit miss give startedCount 2, leftover 1, realMisses 2, successRate 33 |
| `Stats.UserFormulaExceedsHundred` | src/app/api/events/stats/route.ts:35-50 | 7 hits among 10 attacks give a user-formula rate of 233 |
| `Stats.NoAttacksNoRates` | src/app/api/events/stats/route.ts:29-36 | with no attacks both rates are null |
| `Registry.ErrorText` | src/app/api/events/attack/route.ts:86-87 | an `Error` reports its message; anything else reports "An unknown error occurred." |
| `Registry.Empty` | src/lib/events.ts:1-4 | before any registration no type has a handler |
| `Registry.Register` | src/lib/events.ts:6-19 | after registering, the type maps to the new handler, other types are unchanged, and the registered types grow by exactly that type |
| `Registry.Lookup` | src/lib/events.ts:21-28 | a handler is found exactly for registered types, and it is the one in the table |
| `Registry.RegisterOnlyGrows` | src/lib/events.ts:6-28 | a registered type stays registered: there is no removal |
| `Registry.ReRegisterReplaces` | src/app/api/events/handlers.ts:16 | registering a type twice equals registering only the second handler |
| `Registry.RegisterCommutes` | src/lib/events.ts:14 | registrations for different types commute |
| `Paths.Split` | src/app/api/events/route.ts:8 | the pieces are slash-free and at least one |
| `Paths.SplitJoin` | src/app/api/events/attack/route.ts:25 | joining slash-free pieces with `/` and splitting again gives the pieces back |
| `Paths.JoinSplit` | src/app/api/events/attack/route.ts:25 | splitting a path and joining with `/` gives the path back |
| `Paths.LastSegment` | src/app/api/events/route.ts:8 | the event type is a slash-free suffix of the path, preceded by `/` unless it is the whole path |
| `Paths.TrailingSlashEmptyType` | src/app/api/events/route.ts:8 | a path ending in `/` names the empty event type |
| `Paths.NonEmpty` | src/app/api/events/attack/route.ts:25 | every kept segment is a non-empty segment of the path |
| `Paths.NonEmptyComplete` | src/app/api/events/attack/route.ts:25 | no non-empty segment is dropped |
| `Paths.NonEmptyCons` | src/app/api/events/attack/route.ts:25 | a non-empty first segment stays first, ahead of the filtered rest |
| `Paths.NonEmptyConcat` | src/app/api/events/attack/route.ts:25 | filtering distributes over concatenation, so the kept segments keep their order and multiplicity |
| `Paths.IndexOf` | src/app/api/events/attack/route.ts:26 | the first position holding the segment, or none iff it is absent |
| `Paths.HintOf` | src/app/api/events/attack/route.ts:25-30 | the hint is undefined or a non-empty, slash-free segment of the path |
| `Paths.HintIsScan` | src/app/api/events/attack/route.ts:25-30 | for every path, filtering then searching equals the one-pass reading: skip to the first `attack` segment, then take the first non-empty segment after it, else undefined |
| `Paths.HintCharacterized` | src/app/api/events/attack/route.ts:25-30 | the hint is `t` iff the first `attack` segment is followed, after empty segments only, by `t`; it is undefined iff no segment follows that way |
| `Paths.InferredAttackType` | src/app/api/events/attack/route.ts:24-30 | the hint is undefined or a non-empty, slash-free segment, and equals the one-pass reading of the split path |
| `Paths.InferredFromSegments` | src/app/api/events/attack/route.ts:25-30 | on a path `…/attack/<t>/…` with no earlier `attack` segment, the hint is `t` |
| `Paths.KickPathHint` | src/app/api/events/attack/route.ts:22-30 | `/api/events/attack/kick` hints `kick` |
| `Paths.BareAttackPathNoHint` | src/app/api/events/attack/route.ts:28 | `/api/events/attack` gives no hint |
| `Paths.DoubleSlashHint` | src/app/api/events/attack/route.ts:25-30 | `/attack//kick` hints `kick`: the empty segment in between is filtered out |
| `Paths.TrailingSlashAttackNoHint` | src/app/api/events/attack/route.ts:25-30 | `/api/events/attack/` gives no hint: only an empty segment follows `attack` |
| `Ingest.Body` | src/app/api/events/attack/route.ts:7-16 | a non-JSON or unparseable body reads as `{}` |
| `Ingest.AttackType` | src/app/api/events/attack/route.ts:32 | the attack type is the first truthy of: body.attackType, the path hint, body.type, 'Unknown Attack' |
| `Ingest.Canonical` | src/app/api/events/attack/route.ts:32-49 | exactly eight keys; the generated id and timestamp; type 'attack'; the attack type as above; attacker and defender default to 'Player' and 'Dummy' on a falsy value; silent iff `hit` is not boolean; kind 'start' iff silent, else 'result' |
| `Ingest.AttackBase` | src/app/api/events/attack/route.ts:32-50 | the eight route-set fields, plus `hit` exactly when the body's `hit` is boolean, holding the body's value |
| `Ingest.CopyAbsent` | src/app/api/events/attack/route.ts:53-59 | body keys are added only where the record has none; record fields are never overwritten |
| `Ingest.AttackRecord` | src/app/api/events/attack/route.ts:32-59 | the stored attack has the body's keys plus the route's; a route-set field wins over the body's; `hit` is always the body's, so a non-boolean `hit` is copied onto a silent record; every other body key keeps its value |
| `Ingest.DashRecord` | src/app/api/events/dash/route.ts:28-33 | every body key is kept with its value, overriding id/type/timestamp; the generated values fill only missing keys |
| `Ingest.JsonStatusError` | src/app/api/events/attack/route.ts:76 | `NextResponse.json` throws exactly for a status outside 200–599 or a null-body status (204, 205, 304), and what it throws is an `Error` |
| `Ingest.Dispatch` | src/app/api/events/attack/route.ts:70-91 | no handler gives 200 with handled false; a returning handler gives its status and message with handled true when that status can carry a JSON body, and otherwise 500 with the thrown error's message; a throwing handler gives 500 with the error text |
| `Ingest.NoContentStatusFails` | src/app/api/events/attack/route.ts:74-91 | a handler answering 204 makes the attack route reply 500 'Error processing attack event' with the `TypeError`'s message |
| `Ingest.PostAttack` | src/app/api/events/attack/route.ts:5-93 | exactly one record is prepended unless storing fails; the response is the dispatch of the raw body |
| `Ingest.PostDash` | src/app/api/events/dash/route.ts:4-75 | exactly one record is prepended unless storing fails; the response is the dispatch of the raw body |
| `Ingest.PostGeneric` | src/app/api/events/route.ts:4-36 | the reply never has `handled`; 404 for an unknown type; the handler's status and message when that status can carry a JSON body, else 500 with the thrown error's message; 500 with the error text when the handler throws |
| `Ingest.ResponsesIgnoreStorage` | src/app/api/events/attack/route.ts:70-83 | the attack and dash responses do not depend on the ledger, path hint, id, timestamp or storage failure |
| `Ingest.ThrowingHandlerKeepsEvent` | src/app/api/events/attack/route.ts:64-91 | a throwing handler yields 500 while the event stays stored |
| `Ingest.EmptyAttackRecord` | src/app/api/events/attack/route.ts:32-51 | an empty body on a path without a hint stores a silent start with every default |
| `Ingest.EmptyAttackBodyStored` | src/app/api/events/attack/route.ts:7-64 | an unparseable attack body is still stored, as the default record |
| `Ingest.EmptyDashBodyStored` | src/app/api/events/dash/route.ts:14-36 | an empty dash body stores exactly id, type and timestamp: no `character` default |
| `Server.Init` | src/lib/eventsStore.ts:8 | both the ledger and the handler table start empty |
| `Server.Step` | src/lib/eventsStore.ts:10-33 | generic posts, snapshots, stats and registration leave the ledger alone; only registration changes handlers; a snapshot is the ledger; clear empties it; capacity is kept |
| `Server.RunKeepsCapacity` | src/lib/eventsStore.ts:14 | no sequence of requests makes the ledger exceed 100 |
| `Server.ReadOnlyRunKeepsLedger` | src/lib/eventsStore.ts:17-19 | any run of snapshots, stats, generic posts and registrations leaves the ledger unchanged |
| `Server.PostStoresExactlyOne` | src/app/api/events/attack/route.ts:64 | a storing attack or dash post grows the ledger by one, up to the capacity |
| `Server.UnhandledPostIsAccepted` | src/app/api/events/dash/route.ts:62-65 | with no handler for its type, an attack or dash post gets 200 with handled false |
| `Merge.Upsert` | src/contexts/GameEventsContext.tsx:98-99 | `map.set`: a present key keeps its position and takes the new value, a new key is appended; keys stay distinct |
| `Merge.SetAll` | src/contexts/GameEventsContext.tsx:98-99 | setting a list of events keeps keys distinct; the map never shrinks and grows by at most one entry per event |
| `Merge.SetAllKeepsKeys` | src/contexts/GameEventsContext.tsx:98-99 | setting more events never moves or removes a key already in the map |
| `Merge.SetAllAppend` | src/contexts/GameEventsContext.tsx:98-99 | the two loops equal one loop over server events then local events |
| `Merge.SetAllIsMerge` | src/contexts/GameEventsContext.tsx:96-101 | the map's values are one entry per id, the last event with it, ordered by first occurrence |
| `Merge.MergeEvents` | src/contexts/GameEventsContext.tsx:95-102 | the merged list has at most 100 entries and no duplicate ids |
| `Merge.MergeEventsPrefix` | src/contexts/GameEventsContext.tsx:96-101 | the merged list is the first entries, at most 100, of the map built from the server events followed by the local ones |
| `Merge.MergeEventsValues` | src/contexts/GameEventsContext.tsx:98-99 | on an id collision the local event wins; other ids show the last server event; no id comes from nowhere |
| `Merge.MergeEventsOrder` | src/contexts/GameEventsContext.tsx:96-101 | server ids come first, in order of first occurrence, then local-only ids in local order; nothing is re-sorted |
| `Merge.MergeEventsComplete` | src/contexts/GameEventsContext.tsx:101 | when at most 100 distinct ids are involved, every id of either list appears |
| `Merge.MergeEventsIdempotent` | src/contexts/GameEventsContext.tsx:95-102 | merging the same server list (of at most 100) again changes nothing |
| `Client.Init` | src/contexts/GameEventsContext.tsx:48-52 | no events, zero counters, no rate |
| `Client.NewAttack` | src/contexts/GameEventsContext.tsx:54-64 | seven fields; `??` keeps an explicit `hit: false`; `\|\|` defaults attacker to 'Player', defender to 'Enemy 1..3', attack type to one of the four names; `hit` is always set |
| `Client.AddAttack` | src/contexts/GameEventsContext.tsx:54-70 | the event goes in front (at most 100 kept); attackCount + 1; hitCount + 1 iff the event's `hit` is truthy |
| `Client.NewDash` | src/contexts/GameEventsContext.tsx:72-78 | four fields, character defaulting to 'Player' on a falsy value |
| `Client.AddDash` | src/contexts/GameEventsContext.tsx:72-81 | the dash goes in front (at most 100 kept) and only dashCount grows, by one |
| `Client.Refresh` | src/contexts/GameEventsContext.tsx:87-127 | a failed poll changes nothing; otherwise the lists merge, counters are recounted from the server list, and a stats reply replaces the user rate |
| `Client.RefreshCountsFollowServer` | src/contexts/GameEventsContext.tsx:105-119 | after a poll, attack and dash counters equal the server's stats; the hit counter is between the server's hits and its attacks, and equal to the hits when every `hit` is boolean or falsy |
| `Client.LocalAttackUncountedAfterPoll` | src/contexts/GameEventsContext.tsx:65-119 | a local attack followed by a poll of an empty server is still listed, yet every counter reads 0 |
| `Client.RefreshCountsIgnoreLocal` | src/contexts/GameEventsContext.tsx:105-119 | after a poll the attack, hit and dash counters depend only on the server list, not on the local events or counters |
| `Client.OperationsKeepWindow` | src/contexts/GameEventsContext.tsx:54-102 | adding an attack, adding a dash and polling each keep the local list within 100 events |
| `Client.RefreshIdempotent` | src/contexts/GameEventsContext.tsx:95-119 | polling twice with the same server list equals polling once |
| `EventLog.Details` | src/components/dashboard/EventLog.tsx:13-25 | 'Unknown event' exactly for events that are neither attack nor dash; every other non-placeholder sentence ends with a full stop |
| `EventLog.SilentAttackPlaceholder` | src/components/dashboard/EventLog.tsx:14-18 | every attack with a truthy `silent`, of any type, reads 'Attack attempted (no hit info)' |
| `EventLog.AttackSentence` | src/components/dashboard/EventLog.tsx:14-19 | every attack with a falsy `silent` reads '<attacker> used <attackType> on <defender>.', each field converted with `String` |
| `EventLog.Badge` | src/components/dashboard/EventLog.tsx:36-41 | only attacks get a badge; it reads 'Hit' iff `hit` is truthy, else 'Miss' |
| `EventLog.StoredStartShowsPlaceholder` | src/components/dashboard/EventLog.tsx:16-18 | a record stored without a boolean `hit` reads 'Attack attempted (no hit info)' and counts as started, not hit; its badge is Miss unless `hit` is truthy |
| `EventLog.StoredResultShowsParticipants` | src/components/dashboard/EventLog.tsx:19 | a stored result names attacker, attack type and defender with the route's defaults; its badge is Hit iff the stats count a hit, Miss iff they count an explicit miss |
| `EventLog.BadgeAgreesWithStats` | src/components/dashboard/EventLog.tsx:38-39 | for an attack whose `hit` is boolean or falsy, the badge reads Hit iff the stats count a hit |
| `EventLog.TruthyStringHitDisagrees` | src/components/dashboard/EventLog.tsx:39 | `hit: "yes"` shows Hit although the stats do not count it |
| `EventLog.LocalAttackBadgeMatchesCounter` | src/components/dashboard/EventLog.tsx:19-39 | a local attack always names its participants, and the hit counter moves iff its badge reads Hit |
| `EventLog.DashSentence` | src/components/dashboard/EventLog.tsx:21-23 | every dash reads '<character> performed a dash.', the field converted with `String` |
| `EventLog.ServerDashDetails` | src/components/dashboard/EventLog.tsx:21-23 | a dash stored from any body without `type`, or with `type: 'dash'`, reads '<body.character> performed a dash.' |
| `EventLog.DashBodyTypedAttack` | src/app/api/events/dash/route.ts:28-33 | a dash body carrying `type: 'attack'` is stored as an attack: it gets a badge, and its text follows the attack rules on the body's fields |
| `EventLog.DashDetails` | src/components/dashboard/EventLog.tsx:21-23 | a server dash from an empty body reads 'undefined performed a dash.'; a local dash names its character |

## Left out

- HTTP plumbing:
  - `NextResponse`, `request.json()`, content-type sniffing and `new URL`. The body is
    already parsed, and a non-JSON body is `{}`.
  - Non-object JSON bodies.
  - The `GET` handlers that delegate to `POST`.
- Ingest.JsonStatusError: the error messages are Node's wording for the `RangeError`
  and `TypeError` of `Response.json`; another runtime may word them differently.
- Logging (`console.*`). It has no observable effect on the modelled state.
- Randomness and clocks (`crypto.randomUUID`, `Date.now()`, `Math.random()`,
  `toISOString`). These are parameters.
- Floating point: rates use exact integer rounding. A float `h / d * 100` can differ
  from the exact value near a .5 boundary.
- Non-integer numbers in records: `Value` has integers only.
- Js.Text: an array prints as `[object Object]`, because `Value` lumps arrays and
  objects together as `Compound`; JavaScript joins an array's elements with commas.
- Js.Text: numbers are unbounded integers, so the exponent notation `String` uses
  from 1e21 on and the loss of precision above 2^53 are not modelled.
- Client.RefreshIdempotent: holds for ids that are strings, numbers, booleans, null or
  undefined. Each poll parses fresh JSON, and a `Map` compares object keys by
  reference, so an object or array id (the dash route lets the body set `id`) would
  be a new key on every poll and duplicate the event. `Compound` gives the re-parsed
  value the same reference.
- Merge.MergeEventsIdempotent: the same restriction to non-object ids applies.
- `Stats.Compute`: the route's 500 branch ('Failed to compute stats') is not modelled,
  because the pure computation cannot throw.
- `Ingest.PostAttack`: a storage failure is one boolean. Which statement inside the
  storing block failed is not distinguished.
- JavaScript prototype lookups on plain objects. For example, an event type
  `toString` finds a handler, and `'constructor' in stored` is true. Registries and
  records are pure maps.
- Shallow-copy aliasing: `getEvents` returns a new array of the same objects, so a
  later `markEventIgnored` shows through old snapshots. Snapshots here are values.
- Handler side effects: a handler is a pure function of the body.
- Module state shared across processes, and concurrency between requests. Requests
  are served one at a time.
- `src/app/api/events/all/route.ts`: it only wraps the ledger snapshot, which
  `Server.Step` returns as `Events`.
- React hooks, the 3-second polling timer, the `mounted` flag and `fetch`. A poll is
  one `Client.Refresh` with the replies as parameters.
- The AI summarisation flow, `DashboardClient.tsx`, `StatCard.tsx`,
  `SimulationControls.tsx` and `page.tsx`: UI and LLM calls outside the core.

=== FILE: client.dfy ===
/**
 The browser-side event state (src/contexts/GameEventsContext.tsx): the list of
 events shown in the log and the three counters shown on the dashboard. Local
 simulation adds events at the front; every poll of the server merges the
 server's list with the local one and recomputes the counters from the server's
 list alone. Random draws, the generated id and the clock are parameters.
 */
module Client {
  import opened Js
  import Ledger
  import Stats
  import Merge

  /** The attack names a local attack without one picks from. */
  const AttackTypes: seq<string> := ["Sword Slash", "Fireball", "Arrow Shot", "Axe Swing"]

  /** What creating one local event draws from outside: the UUID, the ISO
      timestamp, the hit roll (`Math.random() < 0.7`), the enemy number
      (`Math.floor(Math.random() * 3 + 1)`) and the attack-type index. */
  datatype Draws = Draws(id: string, timestamp: string, hitRoll: bool, enemy: nat, attackTypeIndex: nat)

  /** The ranges the random expressions produce. */
  predicate ValidDraws(d: Draws) {
    1 <= d.enemy <= 3 && d.attackTypeIndex < |AttackTypes|
  }

  datatype ClientState = ClientState(
    events: seq<Record>,
    attackCount: nat,
    hitCount: nat,
    dashCount: nat,
    successRateByUserFormula: Option<int>)

  /** The provider's initial state. */
  function Init(): (st: ClientState)
    ensures st.events == [] && st.attackCount == 0 && st.hitCount == 0 && st.dashCount == 0
    ensures st.successRateByUserFormula == None
  {
    ClientState([], 0, 0, 0, None)
  }

  predicate Nullish(v: Value) { v == Undefined || v == Null }

  /** The event `addAttackEvent` builds from a partial attack: exactly seven
      fields, every display field non-empty, `hit` always present. */
  function NewAttack(event: Record, d: Draws): (e: Record)
    requires ValidDraws(d)
    ensures e.Keys == {"id", "type", "timestamp", "attacker", "defender", "attackType", "hit"}
    ensures e["id"] == Str(d.id) && e["type"] == Str("attack") && e["timestamp"] == Str(d.timestamp)
    ensures Truthy(e["attacker"]) && Truthy(e["defender"]) && Truthy(e["attackType"])
    ensures Truthy(Get(event, "attacker")) ==> e["attacker"] == Get(event, "attacker")
    ensures !Truthy(Get(event, "attacker")) ==> e["attacker"] == Str("Player")
    ensures Truthy(Get(event, "defender")) ==> e["defender"] == Get(event, "defender")
    ensures !Truthy(Get(event, "defender")) ==> e["defender"] == Str("Enemy " + NatText(d.enemy))
    ensures Truthy(Get(event, "attackType")) ==> e["attackType"] == Get(event, "attackType")
    ensures !Truthy(Get(event, "attackType")) ==> e["attackType"].Str? && e["attackType"].s in AttackTypes
    ensures !Nullish(Get(event, "hit")) ==> e["hit"] == Get(event, "hit")
    ensures Nullish(Get(event, "hit")) ==> e["hit"] == Bool(d.hitRoll)
  {
    map[
      "id" := Str(d.id),
      "type" := Str("attack"),
      "timestamp" := Str(d.timestamp),
      "attacker" := Or(Get(event, "attacker"), Str("Player")),
      "defender" := Or(Get(event, "defender"), Str("Enemy " + NatText(d.enemy))),
      "attackType" := Or(Get(event, "attackType"), Str(AttackTypes[d.attackTypeIndex])),
      "hit" := Coalesce(Get(event, "hit"), Bool(d.hitRoll))
    ]
  }

  /** `addAttackEvent`: the new event goes in front (at most 100 kept), the
      attack counter grows by one, and the hit counter by one exactly when the
      event's `hit` is truthy. */
  function AddAttack(st: ClientState, event: Record, d: Draws): (st': ClientState)
    requires ValidDraws(d)
    ensures Ledger.IsPrepended(st.events, NewAttack(event, d), st'.events)
    ensures st'.attackCount == st.attackCount + 1
    ensures st'.hitCount == st.hitCount + 1 <==> Truthy(NewAttack(event, d)["hit"])
    ensures st'.hitCount == st.hitCount || st'.hitCount == st.hitCount + 1
    ensures st'.dashCount == st.dashCount
    ensures st'.successRateByUserFormula == st.successRateByUserFormula
  {
    var e := NewAttack(event, d);
    st.(events := Ledger.Prepend(st.events, e),
        attackCount := st.attackCount + 1,
        hitCount := st.hitCount + (if Truthy(e["hit"]) then 1 else 0))
  }

  /** The event `addDashEvent` builds: exactly four fields, a non-empty character. */
  function NewDash(event: Record, d: Draws): (e: Record)
    ensures e.Keys == {"id", "type", "timestamp", "character"}
    ensures e["id"] == Str(d.id) && e["type"] == Str("dash") && e["timestamp"] == Str(d.timestamp)
    ensures Truthy(e["character"])
    ensures Truthy(Get(event, "character")) ==> e["character"] == Get(event, "character")
    ensures !Truthy(Get(event, "character")) ==> e["character"] == Str("Player")
  {
    map[
      "id" := Str(d.id),
      "type" := Str("dash"),
      "timestamp" := Str(d.timestamp),
      "character" := Or(Get(event, "character"), Str("Player"))
    ]
  }

  /** `addDashEvent`: the new event in front, the dash counter up by one. */
  function AddDash(st: ClientState, event: Record, d: Draws): (st': ClientState)
    ensures Ledger.IsPrepended(st.events, NewDash(event, d), st'.events)
    ensures st'.dashCount == st.dashCount + 1
    ensures st'.attackCount == st.attackCount && st'.hitCount == st.hitCount
    ensures st'.successRateByUserFormula == st.successRateByUserFormula
  {
    st.(events := Ledger.Prepend(st.events, NewDash(event, d)), dashCount := st.dashCount + 1)
  }

  /** The client's notion of a hit: an attack whose `hit` is truthy. */
  predicate IsTruthyHit(r: Record) { Stats.IsAttack(r) && Truthy(Get(r, "hit")) }

  /** One poll: the server's list (`None` when the request fails or the reply
      has no `events`) and the stats reply (`None` when that request fails). A
      missing list leaves everything unchanged; otherwise the lists merge, the
      counters are recounted over the server's list only, and a stats reply
      replaces the user-formula rate (`?? null`). */
  function Refresh(st: ClientState, server: Option<seq<Record>>, stats: Option<Stats.Stats>): (st': ClientState)
    ensures server.None? ==> st' == st
    ensures server.Some? ==> st'.events == Merge.MergeEvents(server.value, st.events)
    ensures server.Some? ==> st'.attackCount == Count(server.value, Stats.IsAttack)
    ensures server.Some? ==> st'.hitCount == Count(server.value, IsTruthyHit)
    ensures server.Some? ==> st'.dashCount == Count(server.value, Stats.IsDash)
    ensures server.Some? && stats.Some? ==>
      st'.successRateByUserFormula == stats.value.successRateByUserFormula
    ensures stats.None? ==> st'.successRateByUserFormula == st.successRateByUserFormula
  {
    match server
    case None => st
    case Some(events) =>
      ClientState(
        Merge.MergeEvents(events, st.events),
        Count(events, Stats.IsAttack),
        Count(events, IsTruthyHit),
        Count(events, Stats.IsDash),
        match stats
        case Some(s) => s.successRateByUserFormula
        case None => st.successRateByUserFormula)
  }

  /** After a poll the attack and dash counters equal the server's statistics
      and the hit counter is at least the server's successful hits (the client
      also counts truthy non-boolean `hit` values); whatever the client held
      before does not matter. */
  lemma RefreshCountsFollowServer(st: ClientState, server: seq<Record>, stats: Option<Stats.Stats>)
    ensures var st' := Refresh(st, Some(server), stats); var s := Stats.Compute(server);
      && st'.attackCount == s.attackCount
      && st'.dashCount == s.dashCount
      && s.successfulHits <= st'.hitCount <= s.attackCount
      && ((forall i :: 0 <= i < |server| && Stats.IsAttack(server[i]) ==>
             Get(server[i], "hit").Bool? || !Truthy(Get(server[i], "hit"))) ==>
          st'.hitCount == s.successfulHits)
  {
    CountImplies(server, Stats.IsHit, IsTruthyHit);
    CountImplies(server, IsTruthyHit, Stats.IsAttack);
  }

  /** The counters after a poll do not depend on the local state: local-only
      events are dropped from the counts although they stay in the list. */
  lemma RefreshCountsIgnoreLocal(a: ClientState, b: ClientState, server: seq<Record>, stats: Option<Stats.Stats>)
    ensures Refresh(a, Some(server), stats).attackCount == Refresh(b, Some(server), stats).attackCount
    ensures Refresh(a, Some(server), stats).hitCount == Refresh(b, Some(server), stats).hitCount
    ensures Refresh(a, Some(server), stats).dashCount == Refresh(b, Some(server), stats).dashCount
  {
  }

  /** A local attack followed by a poll of an empty server: the attack is still
      listed, yet every counter reads zero. */
  lemma LocalAttackUncountedAfterPoll(event: Record, d: Draws)
    requires ValidDraws(d)
    ensures var st := Refresh(AddAttack(Init(), event, d), Some([]), None);
      && st.events == [NewAttack(event, d)]
      && st.attackCount == 0 && st.hitCount == 0 && st.dashCount == 0
  {
    var e := NewAttack(event, d);
    var st1 := AddAttack(Init(), event, d);
    assert st1.events == [e];
    assert Merge.SetAll([], []) == [];
    assert Merge.SetAll([], [e]) == [e] by {
      assert Merge.Upsert([], e) == [e];
      assert [e][1..] == [];
    }
  }

  /** Polling twice with the same server list gives the same state as polling
      once: the merge is idempotent and the counters depend on the server only. */
  lemma RefreshIdempotent(st: ClientState, server: seq<Record>, stats: Option<Stats.Stats>)
    requires Ledger.Valid(server)
    ensures Refresh(Refresh(st, Some(server), stats), Some(server), stats) == Refresh(st, Some(server), stats)
  {
    Merge.MergeEventsIdempotent(server, st.events);
  }

  /** Local events never exceed the 100-entry window, whatever the sequence of
      additions and polls. */
  lemma OperationsKeepWindow(st: ClientState, event: Record, d: Draws, server: Option<seq<Record>>, stats: Option<Stats.Stats>)
    requires Ledger.Valid(st.events) && ValidDraws(d)
    ensures Ledger.Valid(AddAttack(st, event, d).events)
    ensures Ledger.Valid(AddDash(st, event, d).events)
    ensures Ledger.Valid(Refresh(st, server, stats).events)
  {
  }
}

=== FILE: eventlog.dfy ===
/**
 The event log's text (src/components/dashboard/EventLog.tsx): the details
 column (`formatEventDetails`) and the Hit/Miss badge of the result column,
 which is shown for attacks only. Dates, layout and styling are not modelled.
 */
module EventLog {
  import opened Js
  import Stats
  import Ingest
  import Client

  /** `formatEventDetails`: a silent attack gets a fixed placeholder, any other
      attack names attacker, attack type and defender, a dash names its
      character, anything else is unknown. Every non-placeholder sentence ends
      with a full stop. */
  function Details(e: Record): (s: string)
    ensures |s| > 0
    ensures s == "Unknown event" <==> !Stats.IsAttack(e) && !Stats.IsDash(e)
    ensures (Stats.IsDash(e) || (Stats.IsAttack(e) && !Truthy(Get(e, "silent")))) ==> s[|s| - 1] == '.'
  {
    if Stats.IsAttack(e) then
      if Truthy(Get(e, "silent")) then "Attack attempted (no hit info)"
      else
        var s := Text(Get(e, "attacker")) + " used " + Text(Get(e, "attackType")) + " on " + Text(Get(e, "defender")) + ".";
        assert s[|s| - 1] == '.';
        s
    else if Stats.IsDash(e) then
      var s := Text(Get(e, "character")) + " performed a dash.";
      assert s[|s| - 1] == '.';
      s
    else "Unknown event"
  }

  /** Any attack whose `silent` is truthy, whatever else it holds, shows the
      placeholder text. */
  lemma SilentAttackPlaceholder(e: Record)
    requires Stats.IsAttack(e) && Truthy(Get(e, "silent"))
    ensures Details(e) == "Attack attempted (no hit info)"
  {
  }

  /** Any attack that is not silent names attacker, attack type and defender,
      each converted with `String`, whatever type those fields hold. */
  lemma AttackSentence(e: Record)
    requires Stats.IsAttack(e) && !Truthy(Get(e, "silent"))
    ensures Details(e) == Text(Get(e, "attacker")) + " used " + Text(Get(e, "attackType")) + " on " + Text(Get(e, "defender")) + "."
  {
  }

  /** The result badge: `Hit` for an attack whose `hit` is truthy, `Miss` for any
      other attack, no badge for other events. */
  function Badge(e: Record): (b: Option<string>)
    ensures b.Some? <==> Stats.IsAttack(e)
    ensures b.Some? ==> (b.value == "Hit" <==> Client.IsTruthyHit(e))
    ensures b.Some? ==> b.value == "Hit" || b.value == "Miss"
  {
    if Stats.IsAttack(e) then Some(if Truthy(Get(e, "hit")) then "Hit" else "Miss") else None
  }

  /** An attack the route stored without boolean hit information shows the
      placeholder text, and the statistics count it as started, not as a hit;
      its badge still follows the raw `hit`, so a truthy non-boolean `hit`
      (say the string "yes") is shown as Hit. */
  lemma StoredStartShowsPlaceholder(body: Record, pathname: string, id: string, timestamp: string)
    requires !Get(body, "hit").Bool?
    ensures var r := Ingest.AttackRecord(body, pathname, id, timestamp);
      && Details(r) == "Attack attempted (no hit info)"
      && (Badge(r) == Some("Miss") <==> !Truthy(Get(body, "hit")))
      && Stats.IsStarted(r) && !Stats.IsHit(r)
  {
    var r := Ingest.AttackRecord(body, pathname, id, timestamp);
    var c := Ingest.Canonical(body, pathname, id, timestamp);
    assert Get(r, "type") == Get(c, "type") == Str("attack");
    assert Get(r, "silent") == Get(c, "silent") == Bool(true);
    SilentAttackPlaceholder(r);
  }

  /** An attack the route stored with a boolean `hit` names its participants,
      with the route's defaults, and its badge reads Hit exactly when the
      statistics count it as a successful hit. */
  lemma StoredResultShowsParticipants(body: Record, pathname: string, id: string, timestamp: string)
    requires Get(body, "hit").Bool?
    ensures var r := Ingest.AttackRecord(body, pathname, id, timestamp);
      && Details(r) ==
           Text(Or(Get(body, "attacker"), Str("Player"))) + " used " + Text(Ingest.AttackType(body, pathname))
           + " on " + Text(Or(Get(body, "defender"), Str("Dummy"))) + "."
      && (Badge(r) == Some("Hit") <==> Stats.IsHit(r))
      && (Badge(r) == Some("Miss") <==> Stats.IsExplicitMiss(r))
  {
    var r := Ingest.AttackRecord(body, pathname, id, timestamp);
    var c := Ingest.Canonical(body, pathname, id, timestamp);
    assert Get(r, "type") == Get(c, "type") == Str("attack");
    assert Get(r, "silent") == Get(c, "silent") == Bool(false);
    assert Get(r, "attacker") == Get(c, "attacker");
    assert Get(r, "defender") == Get(c, "defender");
    assert Get(r, "attackType") == Get(c, "attackType");
  }

  /** For every attack whose `hit` is boolean or falsy, the badge and the
      statistics agree on what a hit is. */
  lemma BadgeAgreesWithStats(e: Record)
    requires Stats.IsAttack(e)
    requires Get(e, "hit").Bool? || !Truthy(Get(e, "hit"))
    ensures Badge(e) == Some("Hit") <==> Stats.IsHit(e)
  {
  }

  /** A truthy non-boolean `hit` shows a Hit badge, but the statistics do not
      count it as a successful hit. */
  lemma TruthyStringHitDisagrees()
    ensures var e := map["type" := Str("attack"), "hit" := Str("yes")];
      Badge(e) == Some("Hit") && !Stats.IsHit(e)
  {
    var e := map["type" := Str("attack"), "hit" := Str("yes")];
    assert Get(e, "hit") == Str("yes");
  }

  /** A locally simulated attack is never silent: it always names its
      participants, and the client's hit counter moves exactly when its badge
      reads Hit. */
  lemma LocalAttackBadgeMatchesCounter(st: Client.ClientState, event: Record, d: Client.Draws)
    requires Client.ValidDraws(d)
    ensures var e := Client.NewAttack(event, d);
      && Details(e) == Text(e["attacker"]) + " used " + Text(e["attackType"]) + " on " + Text(e["defender"]) + "."
      && (Client.AddAttack(st, event, d).hitCount == st.hitCount + 1 <==> Badge(e) == Some("Hit"))
  {
    var e := Client.NewAttack(event, d);
    assert "silent" !in e;
  }

  /** A dash the route stored from an empty body has no `character`, so the
      log reads "undefined performed a dash."; a locally simulated dash always
      names a character. */
  lemma DashDetails(id: string, timestamp: string, event: Record, d: Client.Draws)
    ensures Details(Ingest.DashRecord(map[], id, timestamp)) == "undefined" + " performed a dash."
    ensures Details(Client.NewDash(event, d)) == Text(Or(Get(event, "character"), Str("Player"))) + " performed a dash."
  {
    ServerDashDetails(map[], id, timestamp);
    var r := Client.NewDash(event, d);
    assert Get(r, "type") == Str("dash");
    DashSentence(r);
  }

  /** Any dash names its `character`, converted with `String`. */
  lemma DashSentence(e: Record)
    requires Stats.IsDash(e)
    ensures Details(e) == Text(Get(e, "character")) + " performed a dash."
  {
  }

  /** A dash the route stored from any body that leaves `type` unset or sets it
      to "dash" names the body's `character`. */
  lemma ServerDashDetails(body: Record, id: string, timestamp: string)
    requires "type" !in body || body["type"] == Str("dash")
    ensures Details(Ingest.DashRecord(body, id, timestamp)) == Text(Get(body, "character")) + " performed a dash."
  {
    var r := Ingest.DashRecord(body, id, timestamp);
    assert Get(r, "type") == Str("dash");
    assert Get(r, "character") == Get(body, "character");
    DashSentence(r);
  }

  /** The dash route spreads the body over its defaults, so a body that says
      `type: "attack"` is stored as an attack: it gets a badge, and its details
      follow the attack rules on the body's own fields. */
  lemma DashBodyTypedAttack(body: Record, id: string, timestamp: string)
    requires Get(body, "type") == Str("attack")
    ensures var r := Ingest.DashRecord(body, id, timestamp);
      && Badge(r).Some?
      && Details(r) ==
           if Truthy(Get(body, "silent")) then "Attack attempted (no hit info)"
           else Text(Get(body, "attacker")) + " used " + Text(Get(body, "attackType")) + " on " + Text(Get(body, "defender")) + "."
  {
    var r := Ingest.DashRecord(body, id, timestamp);
    assert Get(r, "type") == Str("attack");
    assert Get(r, "silent") == Get(body, "silent");
    assert Get(r, "attacker") == Get(body, "attacker");
    assert Get(r, "attackType") == Get(body, "attackType");
    assert Get(r, "defender") == Get(body, "defender");
  }
}

=== FILE: ingest.dfy ===
/**
 The three ingestion routes: src/app/api/events/attack/route.ts,
 src/app/api/events/dash/route.ts and src/app/api/events/route.ts. Each turns a
 parsed body (and, for attack and the generic route, the URL path) into a
 response; the attack and dash routes first store one record in the ledger,
 then dispatch the raw body to the handler registered for their type.
 Generated ids and timestamps are parameters.
 */
module Ingest {
  import opened Js
  import Ledger
  import opened Registry
  import Paths

  /** The request body after the route's defensive parsing: a JSON object, or
      nothing usable (a content type other than JSON, or a body that does not
      parse). */
  datatype Payload = JsonObject(fields: Record) | NotJson

  /** `let body = {}` overwritten by `await request.json()` when that succeeds. */
  function Body(p: Payload): (body: Record)
    ensures p.NotJson? ==> body == map[]
    ensures p.JsonObject? ==> body == p.fields
  {
    match p
    case JsonObject(fields) => fields
    case NotJson => map[]
  }

  /** A JSON response: status, `message`, and the optional `handled` and
      `error` fields. */
  datatype Response = Response(status: int, message: string, handled: Option<bool>, error: Option<string>)

  /** The fields every stored attack record gets from the route itself. */
  const AttackFields: set<string> :=
    {"id", "type", "timestamp", "attackType", "attacker", "defender", "silent", "kind"}

  /** `body.attackType || inferredType || body.type || 'Unknown Attack'`. */
  function AttackType(body: Record, pathname: string): (v: Value)
    ensures Truthy(v)
    ensures Truthy(Get(body, "attackType")) ==> v == Get(body, "attackType")
    ensures !Truthy(Get(body, "attackType")) && Paths.InferredAttackType(pathname).Str? ==>
      v == Paths.InferredAttackType(pathname)
    ensures (!Truthy(Get(body, "attackType")) && Paths.InferredAttackType(pathname).Undefined?
      && Truthy(Get(body, "type"))) ==> v == Get(body, "type")
    ensures (!Truthy(Get(body, "attackType")) && Paths.InferredAttackType(pathname).Undefined?
      && !Truthy(Get(body, "type"))) ==> v == Str("Unknown Attack")
  {
    Or(Get(body, "attackType"), Or(Paths.InferredAttackType(pathname), Or(Get(body, "type"), Str("Unknown Attack"))))
  }

  /** `hit` is not one of the route's own fields, so the route's `hit` never
      collides with them. */
  lemma HitNotCanonical()
    ensures "hit" !in AttackFields
  {
    // Comparing lengths settles all eight string inequalities at once.
    assert forall k :: k in AttackFields ==> |k| != 3;
  }

  /** The eight fields the attack route always sets. */
  function Canonical(body: Record, pathname: string, id: string, timestamp: string): (c: Record)
    ensures c.Keys == AttackFields
    ensures Get(c, "id") == Str(id) && Get(c, "type") == Str("attack")
    ensures Get(c, "timestamp") == Str(timestamp)
    ensures Get(c, "attackType") == AttackType(body, pathname)
    ensures Get(c, "attacker") == Or(Get(body, "attacker"), Str("Player"))
    ensures Get(c, "defender") == Or(Get(body, "defender"), Str("Dummy"))
    ensures Get(c, "silent") == Bool(!Get(body, "hit").Bool?)
    ensures Get(c, "kind") == Str(if Get(body, "hit").Bool? then "result" else "start")
  {
    CanonicalKeys(body, pathname, id, timestamp);
    CanonicalRoute(body, pathname, id, timestamp);
    CanonicalParties(body, pathname, id, timestamp);
    CanonicalFlags(body, pathname, id, timestamp);
    CanonicalMap(body, pathname, id, timestamp)
  }

  /** The literal the route builds. Its facts are proved a few fields at a time
      in the lemmas below: a single query about all eight entries of the map
      display is far costlier for the solver than the sum of the small ones. */
  function CanonicalMap(body: Record, pathname: string, id: string, timestamp: string): Record {
    var silent := !Get(body, "hit").Bool?;
    map[
      "id" := Str(id),
      "type" := Str("attack"),
      "timestamp" := Str(timestamp),
      "attackType" := AttackType(body, pathname),
      "attacker" := Or(Get(body, "attacker"), Str("Player")),
      "defender" := Or(Get(body, "defender"), Str("Dummy")),
      "silent" := Bool(silent),
      "kind" := Str(if silent then "start" else "result")]
  }

  lemma CanonicalKeys(body: Record, pathname: string, id: string, timestamp: string)
    ensures CanonicalMap(body, pathname, id, timestamp).Keys == AttackFields
  {
  }

  lemma CanonicalRoute(body: Record, pathname: string, id: string, timestamp: string)
    ensures var c := CanonicalMap(body, pathname, id, timestamp);
      Get(c, "id") == Str(id) && Get(c, "type") == Str("attack") && Get(c, "timestamp") == Str(timestamp)
  {
    CanonicalId(body, pathname, id, timestamp);
    CanonicalType(body, pathname, id, timestamp);
    CanonicalTimestamp(body, pathname, id, timestamp);
  }

  lemma CanonicalId(body: Record, pathname: string, id: string, timestamp: string)
    ensures Get(CanonicalMap(body, pathname, id, timestamp), "id") == Str(id)
  {
  }

  lemma CanonicalType(body: Record, pathname: string, id: string, timestamp: string)
    ensures Get(CanonicalMap(body, pathname, id, timestamp), "type") == Str("attack")
  {
  }

  lemma CanonicalTimestamp(body: Record, pathname: string, id: string, timestamp: string)
    ensures Get(CanonicalMap(body, pathname, id, timestamp), "timestamp") == Str(timestamp)
  {
  }

  lemma CanonicalParties(body: Record, pathname: string, id: string, timestamp: string)
    ensures var c := CanonicalMap(body, pathname, id, timestamp);
      && Get(c, "attackType") == AttackType(body, pathname)
      && Get(c, "attacker") == Or(Get(body, "attacker"), Str("Player"))
      && Get(c, "defender") == Or(Get(body, "defender"), Str("Dummy"))
  {
    CanonicalAttackType(body, pathname, id, timestamp);
    CanonicalAttacker(body, pathname, id, timestamp);
    CanonicalDefender(body, pathname, id, timestamp);
  }

  lemma CanonicalAttackType(body: Record, pathname: string, id: string, timestamp: string)
    ensures Get(CanonicalMap(body, pathname, id, timestamp), "attackType") == AttackType(body, pathname)
  {
  }

  lemma CanonicalAttacker(body: Record, pathname: string, id: string, timestamp: string)
    ensures Get(CanonicalMap(body, pathname, id, timestamp), "attacker") == Or(Get(body, "attacker"), Str("Player"))
  {
  }

  lemma CanonicalDefender(body: Record, pathname: string, id: string, timestamp: string)
    ensures Get(CanonicalMap(body, pathname, id, timestamp), "defender") == Or(Get(body, "defender"), Str("Dummy"))
  {
  }

  lemma CanonicalFlags(body: Record, pathname: string, id: string, timestamp: string)
    ensures var c := CanonicalMap(body, pathname, id, timestamp);
      && Get(c, "silent") == Bool(!Get(body, "hit").Bool?)
      && Get(c, "kind") == Str(if Get(body, "hit").Bool? then "result" else "start")
  {
  }

  /** The record the attack route builds before copying extra body fields: the
      canonical fields, plus `hit` only when the body's `hit` is a boolean. */
  function AttackBase(body: Record, pathname: string, id: string, timestamp: string): (stored: Record)
    ensures stored.Keys == AttackFields + (if Get(body, "hit").Bool? then {"hit"} else {})
    ensures forall k :: k != "hit" ==> Get(stored, k) == Get(Canonical(body, pathname, id, timestamp), k)
    ensures Get(body, "hit").Bool? ==> Get(stored, "hit") == Get(body, "hit")
  {
    var hitVal := Get(body, "hit");
    var c := Canonical(body, pathname, id, timestamp);
    HitNotCanonical();
    if hitVal.Bool? then c["hit" := hitVal] else c
  }

  /** The attack route's stored record: canonical fields first, then every other
      body field copied only where the record does not have it yet. */
  function AttackRecord(body: Record, pathname: string, id: string, timestamp: string): (r: Record)
    ensures r.Keys == body.Keys + AttackFields
    ensures forall k :: k in AttackFields ==> Get(r, k) == Get(Canonical(body, pathname, id, timestamp), k)
    ensures Get(r, "hit") == Get(body, "hit")
    ensures forall k :: k !in AttackFields ==> Get(r, k) == Get(body, k)
  {
    var stored := AttackBase(body, pathname, id, timestamp);
    HitNotCanonical();
    CopyAbsent(stored, body)
  }

  /** `for (const [k, v] of Object.entries(body)) if (!(k in stored)) stored[k] = v`. */
  function CopyAbsent(stored: Record, body: Record): (r: Record)
    ensures r.Keys == stored.Keys + body.Keys
    ensures forall k :: k in stored ==> r[k] == stored[k]
    ensures forall k :: k in body && k !in stored ==> r[k] == body[k]
  {
    body + stored
  }

  /** The dash route's stored record `{id, type: 'dash', timestamp, ...body}`:
      body fields override the generated ones. */
  function DashRecord(body: Record, id: string, timestamp: string): (r: Record)
    ensures r.Keys == body.Keys + {"id", "type", "timestamp"}
    ensures forall k :: k in body ==> r[k] == body[k]
    ensures "id" !in body ==> r["id"] == Str(id)
    ensures "type" !in body ==> r["type"] == Str("dash")
    ensures "timestamp" !in body ==> r["timestamp"] == Str(timestamp)
  {
    map["id" := Str(id), "type" := Str("dash"), "timestamp" := Str(timestamp)] + body
  }

  /** The "null body statuses" of the Fetch standard (section 2.2.3): a
      response with one of these statuses cannot carry a body. */
  predicate NullBodyStatus(status: int) {
    status == 101 || status == 103 || status == 204 || status == 205 || status == 304
  }

  /** A status `NextResponse.json(data, {status})` can send with a JSON body. */
  predicate Sendable(status: int) {
    200 <= status <= 599 && !NullBodyStatus(status)
  }

  /** What `NextResponse.json` throws for a status it cannot send with a JSON
      body: a `RangeError` outside 200–599, and a `TypeError` for a null-body
      status (204, 205, 304) inside that range. Both are `Error` objects, and
      the wording is Node's. */
  function JsonStatusError(status: int): (e: Option<Thrown>)
    ensures e.None? <==> Sendable(status)
    ensures e.Some? ==> e.value.ErrorObject?
  {
    if status < 200 || status > 599 then
      Some(ErrorObject("init[\"status\"] must be in the range of 200 to 599, inclusive."))
    else if NullBodyStatus(status) then
      Some(ErrorObject("Response constructor: Invalid response status code " + Text(Num(status))))
    else None
  }

  /** Dispatch of the raw body to the handler registered for `eventType`, as the
      attack and dash routes answer: the handler's message and status with
      `handled: true`; a fixed 200 answer with `handled: false` when no handler
      is registered; a 500 when the handler throws, or when its status cannot
      be sent with a JSON body, since `NextResponse.json` then throws inside the
      route's `try`. */
  function Dispatch(handlers: Registry, eventType: string, body: Record,
                    unhandled: string, failure: string): (resp: Response)
    ensures Lookup(handlers, eventType).None? ==> resp == Response(200, unhandled, Some(false), None)
    ensures var o := Lookup(handlers, eventType);
      o.Some? && o.value(body).Returned? && Sendable(o.value(body).status) ==>
        resp == Response(o.value(body).status, o.value(body).message, Some(true), None)
    ensures var o := Lookup(handlers, eventType);
      o.Some? && o.value(body).Returned? && !Sendable(o.value(body).status) ==>
        resp == Response(500, failure, None, Some(ErrorText(JsonStatusError(o.value(body).status).value)))
    ensures eventType in handlers && handlers[eventType](body).Threw? ==>
      resp == Response(500, failure, None, Some(ErrorText(handlers[eventType](body).thrown)))
  {
    match Lookup(handlers, eventType)
    case None => Response(200, unhandled, Some(false), None)
    case Some(handler) =>
      match handler(body)
      case Returned(message, status) =>
        (match JsonStatusError(status)
         case None => Response(status, message, Some(true), None)
         case Some(e) => Response(500, failure, None, Some(ErrorText(e))))
      case Threw(t) => Response(500, failure, None, Some(ErrorText(t)))
  }

  /** A handler that answers 204 No Content does not get its status through:
      `NextResponse.json` refuses a body with it, and the route answers 500 with
      the `TypeError`'s message. */
  lemma NoContentStatusFails(body: Record)
    ensures var handlers := map["attack" := (b: Record) => Returned("ok", 204)];
      Dispatch(handlers, "attack", body, "Attack event received successfully", "Error processing attack event")
        == Response(500, "Error processing attack event", None,
                    Some("Response constructor: Invalid response status code " + "204"))
  {
    var handlers := map["attack" := (b: Record) => Returned("ok", 204)];
    assert Lookup(handlers, "attack") == Some(handlers["attack"]);
    assert handlers["attack"](body) == Returned("ok", 204);
    assert NatText(204) == "204" by {
      assert NatText(2) == "2";
      assert NatText(20) == NatText(2) + "0";
      assert NatText(204) == NatText(20) + "4";
    }
    assert JsonStatusError(204) == Some(ErrorObject("Response constructor: Invalid response status code " + "204"));
  }

  /** The ledger after a call and the response sent. */
  datatype Posted = Posted(ledger: seq<Record>, response: Response)

  /** The attack route's `POST`. `storeFault` stands for an exception inside the
      storing block, which is logged and swallowed. */
  function PostAttack(l: seq<Record>, handlers: Registry, payload: Payload, pathname: string,
                      id: string, timestamp: string, storeFault: bool): (p: Posted)
    ensures !storeFault ==> Ledger.IsPrepended(l, AttackRecord(Body(payload), pathname, id, timestamp), p.ledger)
    ensures storeFault ==> p.ledger == l
    ensures p.response == Dispatch(handlers, "attack", Body(payload),
      "Attack event received successfully", "Error processing attack event")
  {
    var body := Body(payload);
    var l' := if storeFault then l else Ledger.Add(l, AttackRecord(body, pathname, id, timestamp));
    Posted(l', Dispatch(handlers, "attack", body, "Attack event received successfully", "Error processing attack event"))
  }

  /** The dash route's `POST`. */
  function PostDash(l: seq<Record>, handlers: Registry, payload: Payload,
                    id: string, timestamp: string, storeFault: bool): (p: Posted)
    ensures !storeFault ==> Ledger.IsPrepended(l, DashRecord(Body(payload), id, timestamp), p.ledger)
    ensures storeFault ==> p.ledger == l
    ensures p.response == Dispatch(handlers, "dash", Body(payload),
      "Dash event received successfully", "Error processing dash event")
  {
    var body := Body(payload);
    var l' := if storeFault then l else Ledger.Add(l, DashRecord(body, id, timestamp));
    Posted(l', Dispatch(handlers, "dash", body, "Dash event received successfully", "Error processing dash event"))
  }

  /** The generic route's `POST /api/events/<type>`: it stores nothing, answers
      with the handler's message (no `handled` field), 404 for an unknown type,
      500 when the handler throws or returns a status `NextResponse.json`
      rejects. */
  function PostGeneric(handlers: Registry, payload: Payload, pathname: string): (resp: Response)
    ensures resp.handled == None
    ensures Lookup(handlers, Paths.LastSegment(pathname)).None? ==>
      resp == Response(404, "Event type not supported", None, None)
    ensures var o := Lookup(handlers, Paths.LastSegment(pathname));
      o.Some? && o.value(Body(payload)).Returned? && Sendable(o.value(Body(payload)).status) ==>
        resp == Response(o.value(Body(payload)).status, o.value(Body(payload)).message, None, None)
    ensures var o := Lookup(handlers, Paths.LastSegment(pathname));
      o.Some? && o.value(Body(payload)).Returned? && !Sendable(o.value(Body(payload)).status) ==>
        resp == Response(500, "Error processing event", None,
                         Some(ErrorText(JsonStatusError(o.value(Body(payload)).status).value)))
    ensures var t := Paths.LastSegment(pathname);
      t in handlers && handlers[t](Body(payload)).Threw? ==>
        resp == Response(500, "Error processing event", None, Some(ErrorText(handlers[t](Body(payload)).thrown)))
  {
    var eventType := Paths.LastSegment(pathname);
    match Lookup(handlers, eventType)
    case None => Response(404, "Event type not supported", None, None)
    case Some(handler) =>
      match handler(Body(payload))
      case Returned(message, status) =>
        (match JsonStatusError(status)
         case None => Response(status, message, None, None)
         case Some(e) => Response(500, "Error processing event", None, Some(ErrorText(e))))
      case Threw(t) => Response(500, "Error processing event", None, Some(ErrorText(t)))
  }

  /** The attack and dash responses depend only on the registry and the raw
      body: not on the path hint, the generated id and timestamp, the ledger,
      or whether storing failed. */
  lemma ResponsesIgnoreStorage(l1: seq<Record>, l2: seq<Record>, handlers: Registry, payload: Payload,
                               path1: string, path2: string, id1: string, id2: string,
                               ts1: string, ts2: string, fault1: bool, fault2: bool)
    ensures PostAttack(l1, handlers, payload, path1, id1, ts1, fault1).response
         == PostAttack(l2, handlers, payload, path2, id2, ts2, fault2).response
    ensures PostDash(l1, handlers, payload, id1, ts1, fault1).response
         == PostDash(l2, handlers, payload, id2, ts2, fault2).response
  {
  }

  /** A handler that throws still leaves the event stored: the append happens
      before dispatch and is not rolled back. */
  lemma ThrowingHandlerKeepsEvent(l: seq<Record>, handlers: Registry, payload: Payload,
                                  pathname: string, id: string, timestamp: string)
    requires "attack" in handlers && handlers["attack"](Body(payload)).Threw?
    ensures var p := PostAttack(l, handlers, payload, pathname, id, timestamp, false);
      p.response.status == 500 && p.ledger[0] == AttackRecord(Body(payload), pathname, id, timestamp)
  {
  }

  /** The attack record of an empty body on a path without a type hint: a
      silent start with every default. */
  function DefaultAttack(id: string, timestamp: string): Record {
    map["id" := Str(id), "type" := Str("attack"), "timestamp" := Str(timestamp),
        "attackType" := Str("Unknown Attack"), "attacker" := Str("Player"), "defender" := Str("Dummy"),
        "silent" := Bool(true), "kind" := Str("start")]
  }

  lemma EmptyAttackRecord(pathname: string, id: string, timestamp: string)
    requires Paths.InferredAttackType(pathname).Undefined?
    ensures AttackRecord(map[], pathname, id, timestamp) == DefaultAttack(id, timestamp)
  {
    var r := AttackRecord(map[], pathname, id, timestamp);
    var expected := DefaultAttack(id, timestamp);
    assert r.Keys == expected.Keys;
    forall k | k in r
      ensures r[k] == expected[k]
    {
      assert Get(r, k) == r[k];
    }
  }

  /** An empty or unparseable body posted to a path without a type hint is
      still stored. */
  lemma EmptyAttackBodyStored(l: seq<Record>, handlers: Registry, pathname: string, id: string, timestamp: string)
    requires Paths.InferredAttackType(pathname).Undefined?
    ensures var p := PostAttack(l, handlers, NotJson, pathname, id, timestamp, false);
      p.ledger[0] == DefaultAttack(id, timestamp) && |p.ledger| == (if |l| < Ledger.Capacity then |l| + 1 else Ledger.Capacity)
  {
    EmptyAttackRecord(pathname, id, timestamp);
  }

  /** An empty or unparseable dash body yields a record with exactly the three
      generated fields: the server adds no `character` default. */
  lemma EmptyDashBodyStored(l: seq<Record>, handlers: Registry, id: string, timestamp: string)
    ensures PostDash(l, handlers, NotJson, id, timestamp, false).ledger[0]
      == map["id" := Str(id), "type" := Str("dash"), "timestamp" := Str(timestamp)]
  {
  }
}

=== FILE: js.dfy ===
/**
 This module models the JavaScript values that flow through the event ledger:
 parsed JSON bodies, stored event records and client-side events are all
 string-keyed objects whose fields hold loosely-typed values. A key that an
 object does not have reads as `undefined`, as property access does in
 JavaScript.
 */
module Js {

  datatype Option<+T> = None | Some(value: T)

  /** A JavaScript value. Numbers are modelled as integers; `Compound` stands for
      any object or array, identified by its reference. */
  datatype Value =
    | Undefined
    | Null
    | Bool(b: bool)
    | Num(n: int)
    | Str(s: string)
    | Compound(ref: nat)

  /** A plain JavaScript object: its own enumerable properties. */
  type Record = map<string, Value>

  /** The values JavaScript converts to `false`. */
  const Falsy: set<Value> := {Undefined, Null, Bool(false), Num(0), Str("")}

  /** JavaScript truthiness: `undefined`, `null`, `false`, `0` and `""` are falsy,
      every object and array is truthy. */
  predicate Truthy(v: Value): (t: bool)
    ensures t <==> v !in Falsy
  {
    match v
    case Undefined => false
    case Null => false
    case Bool(b) => b
    case Num(n) => n != 0
    case Str(s) => s != ""
    case Compound(_) => true
  }

  /** Property access `o[k]`. */
  function Get(o: Record, k: string): (v: Value)
    ensures k !in o ==> v == Undefined
    ensures k in o ==> v == o[k]
  {
    if k in o then o[k] else Undefined
  }

  /** The expression `a || b`. */
  function Or(a: Value, b: Value): (r: Value)
    ensures Truthy(a) ==> r == a
    ensures !Truthy(a) ==> r == b
    ensures Truthy(r) <==> Truthy(a) || Truthy(b)
  {
    if Truthy(a) then a else b
  }

  /** The expression `a ?? b`: only `null` and `undefined` fall through. */
  function Coalesce(a: Value, b: Value): (r: Value)
    ensures a != Null && a != Undefined ==> r == a
    ensures (a == Null || a == Undefined) ==> r == b
  {
    if a.Null? || a.Undefined? then b else a
  }

  /** Number of elements of `l` satisfying `p`: the `filter(p).length` idiom. */
  function Count<T>(l: seq<T>, p: T -> bool): (n: nat)
    ensures n <= |l|
    ensures n == 0 <==> forall i :: 0 <= i < |l| ==> !p(l[i])
    ensures n == |l| <==> forall i :: 0 <= i < |l| ==> p(l[i])
  {
    if |l| == 0 then 0
    else Count(l[..|l| - 1], p) + (if p(l[|l| - 1]) then 1 else 0)
  }

  /** Counting distributes over concatenation. */
  lemma {:induction false} CountConcat<T>(a: seq<T>, b: seq<T>, p: T -> bool)
    ensures Count(a + b, p) == Count(a, p) + Count(b, p)
    decreases |b|
  {
    if |b| > 0 {
      var b' := b[..|b| - 1];
      assert (a + b)[..|a + b| - 1] == a + b';
      assert (a + b)[|a + b| - 1] == b[|b| - 1];
      CountConcat(a, b', p);
    } else {
      assert a + b == a;
    }
  }

  /** Two lists on which `p` agrees position by position have the same count. */
  lemma {:induction false} CountPointwise<T>(a: seq<T>, b: seq<T>, p: T -> bool)
    requires |a| == |b|
    requires forall i :: 0 <= i < |a| ==> p(a[i]) == p(b[i])
    ensures Count(a, p) == Count(b, p)
  {
    if |a| > 0 {
      CountPointwise(a[..|a| - 1], b[..|b| - 1], p);
    }
  }

  /** A predicate implied by another, element by element, counts at least as
      many elements; equally many when the two agree. */
  lemma {:induction false} CountImplies<T>(l: seq<T>, p: T -> bool, q: T -> bool)
    requires forall i :: 0 <= i < |l| ==> p(l[i]) ==> q(l[i])
    ensures Count(l, p) <= Count(l, q)
    ensures (forall i :: 0 <= i < |l| ==> p(l[i]) == q(l[i])) ==> Count(l, p) == Count(l, q)
  {
    if |l| > 0 {
      CountImplies(l[..|l| - 1], p, q);
    }
  }

  /** `s` consists of decimal digits only. */
  predicate IsDigits(s: string) {
    forall i :: 0 <= i < |s| ==> '0' <= s[i] <= '9'
  }

  /** Decimal text of a non-negative integer, as `String(n)` prints it. */
  function NatText(n: nat): (s: string)
    ensures |s| >= 1
    ensures IsDigits(s)
    ensures n == 0 ==> s == "0"
    ensures n > 0 ==> s[0] != '0'
  {
    var digit := [('0' as int + n % 10) as char];
    if n < 10 then digit else NatText(n / 10) + digit
  }

  /** Value of a string of decimal digits, most significant first. */
  function DigitsValue(s: string): nat
    requires IsDigits(s)
  {
    if |s| == 0 then 0
    else DigitsValue(s[..|s| - 1]) * 10 + (s[|s| - 1] as int - '0' as int)
  }

  /** Reading back the decimal text of `n` gives `n`. */
  lemma {:induction false} NatTextRoundTrip(n: nat)
    ensures DigitsValue(NatText(n)) == n
  {
    if n >= 10 {
      var s := NatText(n);
      assert s[..|s| - 1] == NatText(n / 10);
      NatTextRoundTrip(n / 10);
    }
  }

  /** `String(n)` for an integer: a `-` for a negative number, then the
      canonical decimal numeral of its magnitude, with no leading zero. */
  function IntText(n: int): (s: string)
    ensures n >= 0 ==> |s| >= 1 && IsDigits(s) && DigitsValue(s) == n && (|s| == 1 || s[0] != '0')
    ensures n < 0 ==> |s| >= 2 && s[0] == '-' && IsDigits(s[1..]) && DigitsValue(s[1..]) == -n && s[1] != '0'
  {
    if n < 0 then
      var digits := NatText(-n);
      NatTextRoundTrip(-n);
      assert ("-" + digits)[1..] == digits;
      "-" + digits
    else
      NatTextRoundTrip(n);
      NatText(n)
  }

  /** `String(v)`, the conversion a template literal applies; an object prints
      as `[object Object]`. A number prints as its sign and its canonical
      decimal numeral (no leading zero), which reads back as the number. */
  function Text(v: Value): (s: string)
    ensures |s| > 0 || v == Str("")
    ensures v.Str? ==> s == v.s
    ensures v.Num? && v.n >= 0 ==> IsDigits(s) && DigitsValue(s) == v.n && (|s| == 1 || s[0] != '0')
    ensures v.Num? && v.n < 0 ==> s[0] == '-' && IsDigits(s[1..]) && DigitsValue(s[1..]) == -v.n && s[1] != '0'
    ensures v == Undefined ==> s == "undefined"
    ensures v == Null ==> s == "null"
    ensures v.Bool? ==> s == (if v.b then "true" else "false")
    ensures v.Compound? ==> s == "[object Object]"
  {
    match v
    case Undefined => "undefined"
    case Null => "null"
    case Bool(b) => if b then "true" else "false"
    case Num(n) => IntText(n)
    case Str(s) => s
    case Compound(_) => "[object Object]"
  }
}

=== FILE: ledger.dfy ===
/**
 The server-side event store (src/lib/eventsStore.ts): a newest-first list of
 stored event records that never holds more than `Capacity` entries. The store
 does not deduplicate: two events with the same id are two entries.
 */
module Ledger {
  import opened Js

  const Capacity: nat := 100

  /** Every reachable ledger respects the capacity bound. */
  predicate Valid<T>(l: seq<T>) {
    |l| <= Capacity
  }

  /** `r` is `l` with `e` in front, cut back to `Capacity` entries. */
  ghost predicate IsPrepended<T>(l: seq<T>, e: T, r: seq<T>) {
    && |r| == (if |l| < Capacity then |l| + 1 else Capacity)
    && r[0] == e
    && forall i :: 1 <= i < |r| ==> r[i] == l[i - 1]
  }

  /** Put `e` in front of `l` and keep only the first `Capacity` entries: the
      store's `unshift` followed by `splice(100)` when the length exceeds 100, and
      equally the client's `[e, ...prev].slice(0, 100)`. */
  function Prepend<T>(l: seq<T>, e: T): (r: seq<T>)
    ensures IsPrepended(l, e, r)
  {
    var grown := [e] + l;
    if |grown| > Capacity then grown[..Capacity] else grown
  }

  /** `addEvent`. */
  function Add(l: seq<Record>, e: Record): (r: seq<Record>)
    ensures Valid(r)
    ensures r == Prepend(l, e)
  {
    Prepend(l, e)
  }

  /** After an add, the old entries follow the new one in their old order; only
      the oldest entry is lost, and only when the ledger was already full. */
  lemma AddKeepsOrder(l: seq<Record>, e: Record)
    requires Valid(l)
    ensures Add(l, e) == [e] + (if |l| < Capacity then l else l[..Capacity - 1])
  {
    var r := Add(l, e);
    var expected := [e] + (if |l| < Capacity then l else l[..Capacity - 1]);
    assert |r| == |expected|;
    forall i | 0 <= i < |r|
      ensures r[i] == expected[i]
    {
      if i > 0 {
        assert expected[i] == l[i - 1];
      }
    }
  }

  /** The store does not deduplicate: adding two events that share an id keeps both. */
  lemma AddKeepsDuplicateIds(l: seq<Record>, e1: Record, e2: Record)
    requires Get(e1, "id") == Get(e2, "id")
    ensures var r := Add(Add(l, e1), e2);
      |r| == (if |l| + 2 <= Capacity then |l| + 2 else Capacity) && r[0] == e2 && r[1] == e1
  {
  }

  /** Whether record `r` matches `e.id === id` for a string `id`. */
  predicate HasId(r: Record, id: string) {
    Get(r, "id") == Str(id)
  }

  /** `findIndex(e => e.id === id)`, with `None` for -1. */
  function FindId(l: seq<Record>, id: string): (k: Option<nat>)
    ensures k.Some? ==> k.value < |l| && HasId(l[k.value], id)
    ensures k.Some? ==> forall j :: 0 <= j < k.value ==> !HasId(l[j], id)
    ensures k.None? ==> forall j :: 0 <= j < |l| ==> !HasId(l[j], id)
  {
    if |l| == 0 then None
    else if HasId(l[0], id) then Some(0)
    else match FindId(l[1..], id)
      case None => None
      case Some(j) => Some(j + 1)
  }

  /** The record with its `ignored` flag set. */
  function Ignore(r: Record): (r': Record)
    ensures Get(r', "ignored") == Bool(true)
    ensures forall k :: k != "ignored" ==> Get(r', k) == Get(r, k)
  {
    r["ignored" := Bool(true)]
  }

  datatype Marked = Marked(found: bool, ledger: seq<Record>)

  /** `markEventIgnored(id)`: flags the first event whose id is `id`. */
  function MarkIgnored(l: seq<Record>, id: string): (m: Marked)
    ensures m.found <==> exists i :: 0 <= i < |l| && HasId(l[i], id)
    ensures |m.ledger| == |l|
    ensures !m.found ==> m.ledger == l
    ensures forall i :: 0 <= i < |l| ==>
      m.ledger[i] == (if HasId(l[i], id) && (forall j :: 0 <= j < i ==> !HasId(l[j], id))
                      then Ignore(l[i]) else l[i])
  {
    match FindId(l, id)
    case None => Marked(false, l)
    case Some(k) => Marked(true, l[k := Ignore(l[k])])
  }
}

=== FILE: merge.dfy ===
/**
 The client's dedupe-merge of a fetched server list with its own list
 (src/contexts/GameEventsContext.tsx, `fetchEvents`): every event is `set` into
 a JavaScript `Map` keyed by its `id`, server events first, then the local
 ones; the map's values in insertion order, cut to 100, are the new list.
 A `Map` keeps the position of a key's first insertion and the value of its
 last `set`, which is modelled as an insertion-ordered list of entries.
 */
module Merge {
  import opened Js
  import Ledger

  /** The map key of an event: `e.id`, `undefined` when absent. */
  function KeyOf(e: Record): Value { Get(e, "id") }

  function Keys(l: seq<Record>): (ks: seq<Value>)
    ensures |ks| == |l|
    ensures forall i :: 0 <= i < |l| ==> ks[i] == KeyOf(l[i])
  {
    seq(|l|, i requires 0 <= i < |l| => KeyOf(l[i]))
  }

  /** No two entries share a key: what a `Map`'s value list always satisfies. */
  ghost predicate DistinctKeys(l: seq<Record>) {
    forall i, j :: 0 <= i < j < |l| ==> KeyOf(l[i]) != KeyOf(l[j])
  }

  /** Position of the first entry with key `k`, or -1. */
  function FirstIndex(l: seq<Record>, k: Value): (j: int)
    ensures -1 <= j < |l|
    ensures j >= 0 ==> KeyOf(l[j]) == k && forall i :: 0 <= i < j ==> KeyOf(l[i]) != k
    ensures j < 0 <==> k !in Keys(l)
  {
    if |l| == 0 then -1
    else
      var f := FirstIndex(l[..|l| - 1], k);
      assert Keys(l[..|l| - 1]) == Keys(l)[..|l| - 1];
      assert Keys(l) == Keys(l[..|l| - 1]) + [KeyOf(l[|l| - 1])];
      if f >= 0 then f
      else if KeyOf(l[|l| - 1]) == k then |l| - 1
      else -1
  }

  /** Position of the last entry with key `k`, or -1. */
  function LastIndex(l: seq<Record>, k: Value): (j: int)
    ensures -1 <= j < |l|
    ensures j >= 0 ==> KeyOf(l[j]) == k && forall i :: j < i < |l| ==> KeyOf(l[i]) != k
    ensures j < 0 <==> k !in Keys(l)
  {
    if |l| == 0 then -1
    else if KeyOf(l[|l| - 1]) == k then |l| - 1
    else
      assert Keys(l) == Keys(l[..|l| - 1]) + [KeyOf(l[|l| - 1])];
      LastIndex(l[..|l| - 1], k)
  }

  /** `map.set(e.id, e)`: overwrite the entry with the same key in place, or
      append a new entry. */
  function Upsert(m: seq<Record>, e: Record): (r: seq<Record>)
    ensures |r| == if KeyOf(e) in Keys(m) then |m| else |m| + 1
    ensures Keys(r)[..|m|] == Keys(m)
    ensures KeyOf(e) in Keys(m) ==> r == m[FirstIndex(m, KeyOf(e)) := e]
    ensures KeyOf(e) !in Keys(m) ==> r == m + [e]
    ensures DistinctKeys(m) ==> DistinctKeys(r)
  {
    var i := FirstIndex(m, KeyOf(e));
    if i >= 0 then m[i := e] else m + [e]
  }

  /** `for (const e of es) map.set(e.id, e)`. */
  function SetAll(m: seq<Record>, es: seq<Record>): (r: seq<Record>)
    ensures DistinctKeys(m) ==> DistinctKeys(r)
    ensures |r| <= |m| + |es|
    ensures |r| >= |m|
    decreases |es|
  {
    if |es| == 0 then m else SetAll(Upsert(m, es[0]), es[1..])
  }

  /** Setting more events never moves or removes a key already in the map. */
  lemma {:induction false} SetAllKeepsKeys(m: seq<Record>, es: seq<Record>)
    ensures Keys(SetAll(m, es))[..|m|] == Keys(m)
    decreases |es|
  {
    if |es| > 0 {
      var m' := Upsert(m, es[0]);
      SetAllKeepsKeys(m', es[1..]);
      assert Keys(SetAll(m, es))[..|m|] == Keys(SetAll(m', es[1..]))[..|m'|][..|m|];
    }
  }

  /** The merge in `fetchEvents`: server events, then local ones, into one map;
      its values in insertion order, at most 100 of them. */
  function MergeEvents(server: seq<Record>, local: seq<Record>): (r: seq<Record>)
    ensures Ledger.Valid(r)
    ensures DistinctKeys(r)
  {
    var all := SetAll(SetAll([], server), local);
    if |all| > Ledger.Capacity then all[..Ledger.Capacity] else all
  }

  /** Folding one more event onto a fold is an upsert of that event. */
  lemma {:induction false} SetAllSnoc(m: seq<Record>, es: seq<Record>, x: Record)
    ensures SetAll(m, es + [x]) == Upsert(SetAll(m, es), x)
    decreases |es|
  {
    if |es| == 0 {
      assert (es + [x])[1..] == [];
    } else {
      assert (es + [x])[1..] == es[1..] + [x];
      SetAllSnoc(Upsert(m, es[0]), es[1..], x);
    }
  }

  /** The two loops of the merge are one loop over the concatenation. */
  lemma {:induction false} SetAllAppend(m: seq<Record>, a: seq<Record>, b: seq<Record>)
    ensures SetAll(SetAll(m, a), b) == SetAll(m, a + b)
    decreases |a|
  {
    if |a| == 0 {
      assert a + b == b;
    } else {
      assert (a + b)[1..] == a[1..] + b;
      SetAllAppend(Upsert(m, a[0]), a[1..], b);
    }
  }

  /** The reference meaning of folding `l` into an empty map: one entry per key
      of `l`, holding the LAST event of `l` with that key, entries ordered by
      the FIRST position of their key in `l`. */
  ghost predicate MergedFrom(r: seq<Record>, l: seq<Record>) {
    DistinctKeys(r) && SameKeys(r, l) && LastValues(r, l) && FirstOrder(r, l)
  }

  /** `r` and `l` have the same keys. */
  ghost predicate SameKeys(r: seq<Record>, l: seq<Record>) {
    forall k :: k in Keys(r) <==> k in Keys(l)
  }

  /** Each entry of `r` is the last event of `l` with its key. */
  ghost predicate LastValues(r: seq<Record>, l: seq<Record>) {
    forall i :: 0 <= i < |r| ==> LastIndex(l, KeyOf(r[i])) >= 0 && r[i] == l[LastIndex(l, KeyOf(r[i]))]
  }

  /** The entries of `r` are ordered by the first position of their key in `l`. */
  ghost predicate FirstOrder(r: seq<Record>, l: seq<Record>) {
    forall i, j :: 0 <= i < j < |r| ==> FirstIndex(l, KeyOf(r[i])) < FirstIndex(l, KeyOf(r[j]))
  }

  lemma IndicesSnoc(l: seq<Record>, x: Record, k: Value)
    ensures LastIndex(l + [x], k) == if KeyOf(x) == k then |l| else LastIndex(l, k)
    ensures FirstIndex(l + [x], k) ==
      if FirstIndex(l, k) >= 0 then FirstIndex(l, k) else if KeyOf(x) == k then |l| else -1
  {
    assert (l + [x])[..|l + [x]| - 1] == l;
  }

  /** The map built from `l` is exactly the reference merge of `l`. */
  lemma {:induction false} SetAllIsMerge(l: seq<Record>)
    ensures MergedFrom(SetAll([], l), l)
    decreases |l|
  {
    if |l| == 0 {
      assert SetAll([], l) == [];
    } else {
      var l0, x := l[..|l| - 1], l[|l| - 1];
      assert l == l0 + [x];
      SetAllIsMerge(l0);
      SetAllSnoc([], l0, x);
      var r0 := SetAll([], l0);
      UpsertKeepsMerge(r0, l0, x);
    }
  }

  lemma UpsertKeepsMerge(r0: seq<Record>, l0: seq<Record>, x: Record)
    requires MergedFrom(r0, l0)
    ensures MergedFrom(Upsert(r0, x), l0 + [x])
  {
    forall k
      ensures LastIndex(l0 + [x], k) == if KeyOf(x) == k then |l0| else LastIndex(l0, k)
      ensures FirstIndex(l0 + [x], k) ==
        if FirstIndex(l0, k) >= 0 then FirstIndex(l0, k) else if KeyOf(x) == k then |l0| else -1
    {
      IndicesSnoc(l0, x, k);
    }
    assert Keys(l0 + [x]) == Keys(l0) + [KeyOf(x)];
    if KeyOf(x) in Keys(r0) {
      OverwriteKeepsMerge(r0, l0, x);
    } else {
      AppendKeepsMerge(r0, l0, x);
    }
  }

  /** The facts about indices in `l0 + [x]` both cases below rely on. */
  ghost predicate SnocIndices(l0: seq<Record>, x: Record) {
    && Keys(l0 + [x]) == Keys(l0) + [KeyOf(x)]
    && (forall k :: LastIndex(l0 + [x], k) == if KeyOf(x) == k then |l0| else LastIndex(l0, k))
    && (forall k :: FirstIndex(l0 + [x], k) ==
          if FirstIndex(l0, k) >= 0 then FirstIndex(l0, k) else if KeyOf(x) == k then |l0| else -1)
  }

  lemma OverwriteKeepsMerge(r0: seq<Record>, l0: seq<Record>, x: Record)
    requires MergedFrom(r0, l0) && SnocIndices(l0, x)
    requires KeyOf(x) in Keys(r0)
    ensures MergedFrom(Upsert(r0, x), l0 + [x])
  {
    var p := FirstIndex(r0, KeyOf(x));
    var r := r0[p := x];
    assert Upsert(r0, x) == r;
    assert Keys(r) == Keys(r0) by {
      forall i | 0 <= i < |r0|
        ensures Keys(r)[i] == Keys(r0)[i]
      {
      }
    }
    OverwriteLastValues(r0, l0, x, p);
    OverwriteFirstOrder(r0, l0, x, p);
  }

  lemma OverwriteLastValues(r0: seq<Record>, l0: seq<Record>, x: Record, p: nat)
    requires DistinctKeys(r0) && LastValues(r0, l0) && SnocIndices(l0, x)
    requires p < |r0| && KeyOf(r0[p]) == KeyOf(x)
    ensures LastValues(r0[p := x], l0 + [x])
  {
    var l := l0 + [x];
    var r := r0[p := x];
    forall i | 0 <= i < |r|
      ensures LastIndex(l, KeyOf(r[i])) >= 0 && r[i] == l[LastIndex(l, KeyOf(r[i]))]
    {
      if i != p {
        assert KeyOf(r[i]) != KeyOf(x);
      }
    }
  }

  lemma OverwriteFirstOrder(r0: seq<Record>, l0: seq<Record>, x: Record, p: nat)
    requires SameKeys(r0, l0) && FirstOrder(r0, l0) && SnocIndices(l0, x)
    requires p < |r0| && KeyOf(r0[p]) == KeyOf(x)
    ensures FirstOrder(r0[p := x], l0 + [x])
  {
    var r := r0[p := x];
    forall i | 0 <= i < |r|
      ensures FirstIndex(l0 + [x], KeyOf(r[i])) == FirstIndex(l0, KeyOf(r0[i]))
    {
      assert KeyOf(r[i]) == KeyOf(r0[i]) && Keys(r0)[i] == KeyOf(r0[i]);
    }
  }

  lemma AppendKeepsMerge(r0: seq<Record>, l0: seq<Record>, x: Record)
    requires MergedFrom(r0, l0) && SnocIndices(l0, x)
    requires KeyOf(x) !in Keys(r0)
    ensures MergedFrom(Upsert(r0, x), l0 + [x])
  {
    var r := r0 + [x];
    assert Upsert(r0, x) == r;
    assert Keys(r) == Keys(r0) + [KeyOf(x)];
    AppendLastValues(r0, l0, x);
    AppendFirstOrder(r0, l0, x);
  }

  lemma AppendLastValues(r0: seq<Record>, l0: seq<Record>, x: Record)
    requires SameKeys(r0, l0) && LastValues(r0, l0) && SnocIndices(l0, x)
    requires KeyOf(x) !in Keys(r0)
    ensures LastValues(r0 + [x], l0 + [x])
  {
    var l := l0 + [x];
    var r := r0 + [x];
    forall i | 0 <= i < |r|
      ensures LastIndex(l, KeyOf(r[i])) >= 0 && r[i] == l[LastIndex(l, KeyOf(r[i]))]
    {
      if i < |r0| {
        assert Keys(r0)[i] == KeyOf(r[i]);
      }
    }
  }

  lemma AppendFirstOrder(r0: seq<Record>, l0: seq<Record>, x: Record)
    requires SameKeys(r0, l0) && FirstOrder(r0, l0) && SnocIndices(l0, x)
    requires KeyOf(x) !in Keys(r0)
    ensures FirstOrder(r0 + [x], l0 + [x])
  {
    var l := l0 + [x];
    var r := r0 + [x];
    forall i, j | 0 <= i < j < |r|
      ensures FirstIndex(l, KeyOf(r[i])) < FirstIndex(l, KeyOf(r[j]))
    {
      assert Keys(r0)[i] == KeyOf(r[i]);
    }
  }

  /** The last occurrence of a key in `a + b` is in `b` when `b` has the key. */
  lemma {:induction false} LastIndexConcat(a: seq<Record>, b: seq<Record>, k: Value)
    ensures LastIndex(a + b, k) == if k in Keys(b) then |a| + LastIndex(b, k) else LastIndex(a, k)
    decreases |b|
  {
    if |b| == 0 {
      assert a + b == a;
    } else {
      var b0, x := b[..|b| - 1], b[|b| - 1];
      assert b == b0 + [x];
      assert a + b == (a + b0) + [x];
      assert Keys(b) == Keys(b0) + [KeyOf(x)];
      IndicesSnoc(a + b0, x, k);
      IndicesSnoc(b0, x, k);
      LastIndexConcat(a, b0, k);
    }
  }

  /** A position holding key `k` with no `k` before it is the first index of `k`. */
  lemma FirstIndexUnique(l: seq<Record>, k: Value, j: nat)
    requires j < |l| && KeyOf(l[j]) == k
    requires forall i :: 0 <= i < j ==> KeyOf(l[i]) != k
    ensures FirstIndex(l, k) == j
  {
    assert Keys(l)[j] == k;
  }

  /** The first occurrence of a key in `a + b` is its first occurrence in `a`
      when `a` has it, and otherwise its first occurrence in `b`, shifted. */
  lemma FirstIndexConcat(a: seq<Record>, b: seq<Record>, k: Value)
    ensures k in Keys(a) ==> FirstIndex(a + b, k) == FirstIndex(a, k)
    ensures k !in Keys(a) && k in Keys(b) ==> FirstIndex(a + b, k) == |a| + FirstIndex(b, k)
  {
    if k in Keys(a) {
      FirstIndexInLeft(a, b, k);
    } else if k in Keys(b) {
      FirstIndexInRight(a, b, k);
    }
  }

  lemma FirstIndexInLeft(a: seq<Record>, b: seq<Record>, k: Value)
    requires k in Keys(a)
    ensures FirstIndex(a + b, k) == FirstIndex(a, k)
  {
    var f := FirstIndex(a, k);
    assert (a + b)[f] == a[f];
    FirstIndexUnique(a + b, k, f);
  }

  lemma FirstIndexInRight(a: seq<Record>, b: seq<Record>, k: Value)
    requires k !in Keys(a) && k in Keys(b)
    ensures FirstIndex(a + b, k) == |a| + FirstIndex(b, k)
  {
    var f := FirstIndex(b, k);
    forall i | 0 <= i < |a| + f
      ensures KeyOf((a + b)[i]) != k
    {
      if i < |a| {
        assert Keys(a)[i] == KeyOf(a[i]);
      }
    }
    FirstIndexUnique(a + b, k, |a| + f);
  }

  /** The merged list is a prefix of the map built from `server + local`. */
  lemma MergeEventsPrefix(server: seq<Record>, local: seq<Record>)
    ensures var all := SetAll([], server + local); var r := MergeEvents(server, local);
      |r| <= |all| && r == all[..|r|]
  {
    SetAllAppend([], server, local);
  }

  /** Which event the client's list shows for each id after a merge: the LAST
      local event with that id when the local list has it (local wins), else the
      last server event with it; no id comes from nowhere. */
  lemma MergeEventsValues(server: seq<Record>, local: seq<Record>)
    ensures var r := MergeEvents(server, local);
      && (forall i :: 0 <= i < |r| && KeyOf(r[i]) in Keys(local) ==>
            r[i] == local[LastIndex(local, KeyOf(r[i]))])
      && (forall i :: 0 <= i < |r| && KeyOf(r[i]) !in Keys(local) ==>
            KeyOf(r[i]) in Keys(server) && r[i] == server[LastIndex(server, KeyOf(r[i]))])
      && (forall k :: k in Keys(r) ==> k in Keys(server) || k in Keys(local))
  {
    MergeEventsPrefix(server, local);
    SetAllIsMerge(server + local);
    MergedPrefixValues(server, local, SetAll([], server + local), MergeEvents(server, local));
  }

  /** The order of the client's list after a merge: ids seen on the server come
      first, in the order of their first server occurrence, then local-only ids
      in the order of their first local occurrence; nothing is re-sorted. */
  lemma MergeEventsOrder(server: seq<Record>, local: seq<Record>)
    ensures var r := MergeEvents(server, local);
      && (forall i, j :: 0 <= i < j < |r| && KeyOf(r[j]) in Keys(server) ==> KeyOf(r[i]) in Keys(server))
      && (forall i, j :: 0 <= i < j < |r| && KeyOf(r[i]) in Keys(server) && KeyOf(r[j]) in Keys(server) ==>
            FirstIndex(server, KeyOf(r[i])) < FirstIndex(server, KeyOf(r[j])))
      && (forall i, j :: 0 <= i < j < |r| && KeyOf(r[i]) !in Keys(server) && KeyOf(r[j]) !in Keys(server) ==>
            FirstIndex(local, KeyOf(r[i])) < FirstIndex(local, KeyOf(r[j])))
  {
    MergeEventsPrefix(server, local);
    SetAllIsMerge(server + local);
    MergedPrefixOrder(server, local, SetAll([], server + local), MergeEvents(server, local));
  }

  lemma MergedPrefixValues(server: seq<Record>, local: seq<Record>, all: seq<Record>, r: seq<Record>)
    requires MergedFrom(all, server + local)
    requires |r| <= |all| && r == all[..|r|]
    ensures forall i :: 0 <= i < |r| && KeyOf(r[i]) in Keys(local) ==>
      r[i] == local[LastIndex(local, KeyOf(r[i]))]
    ensures forall i :: 0 <= i < |r| && KeyOf(r[i]) !in Keys(local) ==>
      KeyOf(r[i]) in Keys(server) && r[i] == server[LastIndex(server, KeyOf(r[i]))]
    ensures forall k :: k in Keys(r) ==> k in Keys(server) || k in Keys(local)
  {
    assert Keys(server + local) == Keys(server) + Keys(local);
    forall i | 0 <= i < |r|
      ensures KeyOf(r[i]) in Keys(local) ==> r[i] == local[LastIndex(local, KeyOf(r[i]))]
      ensures KeyOf(r[i]) !in Keys(local) ==>
        KeyOf(r[i]) in Keys(server) && r[i] == server[LastIndex(server, KeyOf(r[i]))]
    {
      assert r[i] == all[i];
      assert KeyOf(all[i]) in Keys(all);
      LastIndexConcat(server, local, KeyOf(r[i]));
    }
    forall k | k in Keys(r)
      ensures k in Keys(server) || k in Keys(local)
    {
      var i :| 0 <= i < |r| && Keys(r)[i] == k;
      assert r[i] == all[i];
      assert KeyOf(all[i]) in Keys(all);
    }
  }

  lemma MergedPrefixOrder(server: seq<Record>, local: seq<Record>, all: seq<Record>, r: seq<Record>)
    requires MergedFrom(all, server + local)
    requires |r| <= |all| && r == all[..|r|]
    ensures forall i, j :: 0 <= i < j < |r| && KeyOf(r[j]) in Keys(server) ==> KeyOf(r[i]) in Keys(server)
    ensures forall i, j :: 0 <= i < j < |r| && KeyOf(r[i]) in Keys(server) && KeyOf(r[j]) in Keys(server) ==>
      FirstIndex(server, KeyOf(r[i])) < FirstIndex(server, KeyOf(r[j]))
    ensures forall i, j :: 0 <= i < j < |r| && KeyOf(r[i]) !in Keys(server) && KeyOf(r[j]) !in Keys(server) ==>
      FirstIndex(local, KeyOf(r[i])) < FirstIndex(local, KeyOf(r[j]))
  {
    forall i, j | 0 <= i < j < |r|
      ensures KeyOf(r[j]) in Keys(server) ==> KeyOf(r[i]) in Keys(server)
      ensures KeyOf(r[i]) in Keys(server) && KeyOf(r[j]) in Keys(server) ==>
        FirstIndex(server, KeyOf(r[i])) < FirstIndex(server, KeyOf(r[j]))
      ensures KeyOf(r[i]) !in Keys(server) && KeyOf(r[j]) !in Keys(server) ==>
        FirstIndex(local, KeyOf(r[i])) < FirstIndex(local, KeyOf(r[j]))
    {
      assert r[i] == all[i] && r[j] == all[j];
      assert FirstIndex(server + local, KeyOf(r[i])) < FirstIndex(server + local, KeyOf(r[j]));
      FirstIndexConcat(server, local, KeyOf(r[i]));
      FirstIndexConcat(server, local, KeyOf(r[j]));
    }
  }

  /** Nothing is lost when the distinct ids fit: every id of either list appears. */
  lemma MergeEventsComplete(server: seq<Record>, local: seq<Record>)
    requires |SetAll([], server + local)| <= Ledger.Capacity
    ensures forall k :: k in Keys(MergeEvents(server, local)) <==> k in Keys(server) || k in Keys(local)
  {
    var all := SetAll([], server + local);
    SetAllAppend([], server, local);
    assert MergeEvents(server, local) == all;
    SetAllIsMerge(server + local);
    SameKeysConcat(all, server, local);
  }

  lemma SameKeysConcat(r: seq<Record>, a: seq<Record>, b: seq<Record>)
    requires SameKeys(r, a + b)
    ensures forall k :: k in Keys(r) <==> k in Keys(a) || k in Keys(b)
  {
    assert Keys(a + b) == Keys(a) + Keys(b);
  }

  /** The first `n` entries of `r` followed by what remains of `d` past them. */
  function Overlaid(d: seq<Record>, r: seq<Record>, n: nat): seq<Record>
    requires n <= |r|
  {
    r[..n] + (if n < |d| then d[n..] else [])
  }

  /** Folding the entries of `r` onto `d`, whose keys are a prefix of `r`'s,
      rewrites `d` into `r` entry by entry. */
  lemma {:induction false} OverlayPrefix(d: seq<Record>, r: seq<Record>, n: nat)
    requires DistinctKeys(r)
    requires |d| <= |r| && Keys(r)[..|d|] == Keys(d)
    requires n <= |r|
    ensures SetAll(d, r[..n]) == Overlaid(d, r, n)
  {
    if n == 0 {
      assert r[..0] == [];
      assert SetAll(d, []) == d;
    } else {
      var m := n - 1;
      OverlayPrefix(d, r, m);
      TakeSnoc(r, m);
      SetAllSnoc(d, r[..m], r[m]);
      assert SetAll(d, r[..n]) == Upsert(Overlaid(d, r, m), r[m]);
      OverlayStep(d, r, m);
    }
  }

  lemma TakeSnoc(r: seq<Record>, m: nat)
    requires m < |r|
    ensures r[..m + 1] == r[..m] + [r[m]]
  {
  }

  lemma OverlayStep(d: seq<Record>, r: seq<Record>, m: nat)
    requires DistinctKeys(r)
    requires |d| <= |r| && Keys(r)[..|d|] == Keys(d)
    requires m < |r|
    ensures Upsert(Overlaid(d, r, m), r[m]) == Overlaid(d, r, m + 1)
  {
    if m < |d| {
      OverlayStepInside(d, r, m);
    } else {
      OverlayStepBeyond(d, r, m);
    }
  }

  lemma OverlayStepInside(d: seq<Record>, r: seq<Record>, m: nat)
    requires DistinctKeys(r)
    requires |d| <= |r| && Keys(r)[..|d|] == Keys(d)
    requires m < |d|
    ensures Upsert(r[..m] + d[m..], r[m]) == r[..m + 1] + (if m + 1 < |d| then d[m + 1..] else [])
  {
    var cur := r[..m] + d[m..];
    OverlayKeys(d, r, m);
    assert Keys(cur)[m] == KeyOf(r[m]);
    FirstIndexUnique(cur, KeyOf(r[m]), m);
    assert Upsert(cur, r[m]) == cur[m := r[m]];
    OverwriteNext(d, r, m);
  }

  /** Writing `r[m]` over position `m` of the overlay advances it by one. */
  lemma OverwriteNext(d: seq<Record>, r: seq<Record>, m: nat)
    requires m < |d| && m < |r|
    ensures (r[..m] + d[m..])[m := r[m]] == r[..m + 1] + (if m + 1 < |d| then d[m + 1..] else [])
  {
  }

  /** Overwriting a prefix of `d` with entries of the same keys keeps `d`'s keys. */
  lemma OverlayKeys(d: seq<Record>, r: seq<Record>, m: nat)
    requires |d| <= |r| && Keys(r)[..|d|] == Keys(d)
    requires m < |d|
    ensures Keys(r[..m] + d[m..]) == Keys(d)
  {
    var cur := r[..m] + d[m..];
    forall i | 0 <= i < |d|
      ensures Keys(cur)[i] == Keys(d)[i]
    {
      if i < m {
        assert Keys(r)[i] == Keys(d)[i];
      }
    }
  }

  lemma OverlayStepBeyond(d: seq<Record>, r: seq<Record>, m: nat)
    requires DistinctKeys(r)
    requires |d| <= m < |r|
    ensures Upsert(r[..m], r[m]) == r[..m + 1]
  {
    assert KeyOf(r[m]) !in Keys(r[..m]);
    assert r[..m] + [r[m]] == r[..m + 1];
  }

  /** Merging the same server list again changes nothing, as long as the server
      list respects the store's capacity. */
  lemma MergeEventsIdempotent(server: seq<Record>, local: seq<Record>)
    requires Ledger.Valid(server)
    ensures MergeEvents(server, MergeEvents(server, local)) == MergeEvents(server, local)
  {
    var d := SetAll([], server);
    var all := SetAll(d, local);
    var r := MergeEvents(server, local);
    assert |d| <= |r|;
    assert Keys(r)[..|d|] == Keys(d) by {
      SetAllKeepsKeys(d, local);
      assert Keys(r) == Keys(all)[..|r|];
    }
    OverlayPrefix(d, r, |r|);
    assert r[..|r|] == r;
  }
}

=== FILE: paths.dfy ===
/**
 The URL-path handling of the ingestion routes: `pathname.split('/')`, the
 generic route's last segment (`split('/').pop()`), and the attack route's
 segment after the first `attack` (`split('/').filter(Boolean)` then
 `indexOf('attack')`).
 */
module Paths {
  import opened Js

  /** `s.split('/')`: the maximal slash-free pieces of `s`, including empty ones. */
  function Split(s: string): (parts: seq<string>)
    ensures |parts| >= 1
    ensures forall i :: 0 <= i < |parts| ==> '/' !in parts[i]
  {
    if |s| == 0 then [""]
    else
      var rest := Split(s[1..]);
      if s[0] == '/' then [""] + rest
      else [[s[0]] + rest[0]] + rest[1..]
  }

  /** `parts.join('/')`, the inverse of `Split`. */
  function Join(parts: seq<string>): string
    requires |parts| >= 1
  {
    if |parts| == 1 then parts[0] else parts[0] + "/" + Join(parts[1..])
  }

  lemma JoinCons(first: string, rest: seq<string>)
    requires |rest| >= 1
    ensures Join([first] + rest) == first + "/" + Join(rest)
  {
    assert ([first] + rest)[1..] == rest;
  }

  /** Splitting then joining gives back the path. */
  lemma {:induction false} JoinSplit(s: string)
    ensures Join(Split(s)) == s
  {
    if |s| > 0 {
      var rest := Split(s[1..]);
      JoinSplit(s[1..]);
      if s[0] == '/' {
        assert Split(s)[1..] == rest;
        assert s == [s[0]] + s[1..];
      } else {
        JoinConsFirst(s[0], rest);
        assert s == [s[0]] + s[1..];
      }
    }
  }

  /** Extending the first part of a join by a character extends the joined text. */
  lemma {:induction false} JoinConsFirst(c: char, parts: seq<string>)
    requires |parts| >= 1
    ensures Join([[c] + parts[0]] + parts[1..]) == [c] + Join(parts)
  {
    var parts' := [[c] + parts[0]] + parts[1..];
    assert parts'[0] == [c] + parts[0];
    if |parts| > 1 {
      var rest := Join(parts[1..]);
      assert parts'[1..] == parts[1..];
      assert Join(parts') == ([c] + parts[0]) + "/" + rest;
      assert ([c] + parts[0]) + "/" + rest == [c] + (parts[0] + "/" + rest);
    }
  }

  /** Joining slash-free parts then splitting gives back the parts. */
  lemma {:induction false} SplitJoin(parts: seq<string>)
    requires |parts| >= 1
    requires forall i :: 0 <= i < |parts| ==> '/' !in parts[i]
    ensures Split(Join(parts)) == parts
    decreases |parts|, |parts[0]|
  {
    if |parts[0]| == 0 {
      if |parts| > 1 {
        SplitJoin(parts[1..]);
        assert Join(parts) == "/" + Join(parts[1..]);
        assert Join(parts)[1..] == Join(parts[1..]);
        assert parts == [""] + parts[1..];
      }
    } else {
      var c := parts[0][0];
      var tail := [parts[0][1..]] + parts[1..];
      assert parts[0] == [c] + parts[0][1..];
      assert tail[1..] == parts[1..];
      assert parts == [[c] + tail[0]] + tail[1..];
      JoinConsFirst(c, tail);
      SplitJoin(tail);
      assert Join(parts)[1..] == Join(tail);
    }
  }

  /** The generic route's event type: the text after the last `/`
      (`pathname.split('/').pop() || ''`). */
  function LastSegment(pathname: string): (t: string)
    ensures '/' !in t
    ensures |t| <= |pathname| && pathname[|pathname| - |t|..] == t
    ensures |t| < |pathname| ==> pathname[|pathname| - |t| - 1] == '/'
  {
    var parts := Split(pathname);
    LastSegmentOfSplit(pathname);
    parts[|parts| - 1]
  }

  lemma {:induction false} LastSegmentOfSplit(s: string)
    ensures var parts := Split(s); var t := parts[|parts| - 1];
      && |t| <= |s| && s[|s| - |t|..] == t
      && (|t| < |s| ==> s[|s| - |t| - 1] == '/')
      && (|parts| > 1 ==> |t| < |s|)
  {
    if |s| > 0 {
      LastSegmentOfSplit(s[1..]);
      var rest := Split(s[1..]);
      var parts := Split(s);
      if s[0] == '/' {
        assert parts[|parts| - 1] == rest[|rest| - 1];
      } else if |rest| == 1 {
        JoinSplit(s[1..]);
        assert parts == [[s[0]] + rest[0]];
        assert s == [s[0]] + s[1..];
      } else {
        assert parts[|parts| - 1] == rest[|rest| - 1];
      }
    }
  }

  /** `parts.filter(Boolean)`: drop the empty pieces. */
  function NonEmpty(parts: seq<string>): (r: seq<string>)
    ensures forall i :: 0 <= i < |r| ==> r[i] != "" && r[i] in parts
  {
    if |parts| == 0 then []
    else if parts[0] == "" then NonEmpty(parts[1..])
    else [parts[0]] + NonEmpty(parts[1..])
  }

  /** No non-empty segment is dropped. */
  lemma {:induction false} NonEmptyComplete(parts: seq<string>)
    ensures forall i :: 0 <= i < |parts| && parts[i] != "" ==> parts[i] in NonEmpty(parts)
  {
    if |parts| > 0 {
      NonEmptyComplete(parts[1..]);
      assert forall i :: 1 <= i < |parts| ==> parts[i] == parts[1..][i - 1];
    }
  }

  /** `parts.indexOf(x)`, with `None` for -1. */
  function IndexOf(parts: seq<string>, x: string): (k: Option<nat>)
    ensures k.Some? ==> k.value < |parts| && parts[k.value] == x
    ensures k.Some? ==> forall j :: 0 <= j < k.value ==> parts[j] != x
    ensures k.None? <==> x !in parts
  {
    if |parts| == 0 then None
    else if parts[0] == x then Some(0)
    else match IndexOf(parts[1..], x)
      case None => None
      case Some(j) => Some(j + 1)
  }

  /** The attack route's path hint: the non-empty segment right after the first
      `attack` segment, or `undefined`. */
  function InferredAttackType(pathname: string): (v: Value)
    ensures v.Undefined? || (v.Str? && Truthy(v) && '/' !in v.s)
    ensures v == ScanHint(Split(pathname))
  {
    HintIsScan(Split(pathname));
    HintOf(Split(pathname))
  }

  /** The hint taken from already-split segments. */
  function HintOf(segments: seq<string>): (v: Value)
    requires forall i :: 0 <= i < |segments| ==> '/' !in segments[i]
    ensures v.Undefined? || (v.Str? && Truthy(v) && '/' !in v.s)
    ensures v.Str? ==> v.s in segments
  {
    var parts := NonEmpty(segments);
    match IndexOf(parts, "attack")
    case Some(k) =>
      if |parts| > k + 1 then
        assert parts[k + 1] in segments;
        Str(parts[k + 1])
      else Undefined
    case None => Undefined
  }

  /** The first non-empty segment, or `undefined` when there is none. */
  function FirstNonEmpty(segments: seq<string>): (v: Value)
    ensures v.Str? ==> v.s != "" && v.s in segments
  {
    if |segments| == 0 then Undefined
    else if segments[0] != "" then Str(segments[0])
    else FirstNonEmpty(segments[1..])
  }

  /** A reference reading of the hint, one raw segment at a time: skip to the
      first `attack` segment, then take the first non-empty segment after it,
      passing over any empty ones; `undefined` when either is missing. */
  function ScanHint(segments: seq<string>): Value {
    if |segments| == 0 then Undefined
    else if segments[0] == "attack" then FirstNonEmpty(segments[1..])
    else ScanHint(segments[1..])
  }

  /** The first non-empty segment is the head of the filtered list. */
  lemma {:induction false} FirstNonEmptyIsHead(segments: seq<string>)
    ensures FirstNonEmpty(segments) == if |NonEmpty(segments)| > 0 then Str(NonEmpty(segments)[0]) else Undefined
  {
    if |segments| > 0 && segments[0] == "" {
      FirstNonEmptyIsHead(segments[1..]);
    }
  }

  /** Filtering then searching, as the route does, agrees with the
      segment-by-segment reading, for every path. */
  lemma {:induction false} HintIsScan(segments: seq<string>)
    requires forall i :: 0 <= i < |segments| ==> '/' !in segments[i]
    ensures HintOf(segments) == ScanHint(segments)
  {
    if |segments| > 0 {
      var rest := segments[1..];
      HintIsScan(rest);
      if segments[0] == "" {
        assert NonEmpty(segments) == NonEmpty(rest);
      } else if segments[0] == "attack" {
        assert NonEmpty(segments) == ["attack"] + NonEmpty(rest);
        FirstNonEmptyIsHead(rest);
      } else {
        HintPastOtherSegment(segments);
      }
    }
  }

  /** Segment `i` is the first `attack` and segment `j` the first non-empty
      segment after it, with only empty segments in between. */
  ghost predicate HintAt(segments: seq<string>, i: int, j: int) {
    && 0 <= i < j < |segments|
    && segments[i] == "attack"
    && (forall m :: 0 <= m < i ==> segments[m] != "attack")
    && (forall m :: i < m < j ==> segments[m] == "")
    && segments[j] != ""
  }

  /** The hint is `t` exactly when the first `attack` segment is followed,
      after empty segments only, by `t`; otherwise it is `undefined`. */
  lemma HintCharacterized(segments: seq<string>, t: string)
    requires forall i :: 0 <= i < |segments| ==> '/' !in segments[i]
    ensures HintOf(segments) == Str(t) <==> exists i, j :: HintAt(segments, i, j) && segments[j] == t
    ensures HintOf(segments) == Undefined <==> forall i, j :: !HintAt(segments, i, j)
  {
    HintIsScan(segments);
    if ScanHint(segments).Str? {
      var i, j := ScanHintWitness(segments);
    }
    forall i, j | HintAt(segments, i, j)
      ensures ScanHint(segments) == Str(segments[j])
    {
      ScanHintAt(segments, i, j);
    }
  }

  lemma {:induction false} ScanHintAt(segments: seq<string>, i: int, j: int)
    requires HintAt(segments, i, j)
    ensures ScanHint(segments) == Str(segments[j])
  {
    if i == 0 {
      FirstNonEmptyAt(segments[1..], j - 1);
    } else {
      assert HintAt(segments[1..], i - 1, j - 1);
      ScanHintAt(segments[1..], i - 1, j - 1);
    }
  }

  lemma {:induction false} FirstNonEmptyAt(segments: seq<string>, j: int)
    requires 0 <= j < |segments| && segments[j] != ""
    requires forall m :: 0 <= m < j ==> segments[m] == ""
    ensures FirstNonEmpty(segments) == Str(segments[j])
  {
    if j > 0 {
      FirstNonEmptyAt(segments[1..], j - 1);
    }
  }

  lemma {:induction false} ScanHintWitness(segments: seq<string>) returns (i: int, j: int)
    requires ScanHint(segments).Str?
    ensures HintAt(segments, i, j) && ScanHint(segments) == Str(segments[j])
  {
    if segments[0] == "attack" {
      var k := FirstNonEmptyWitness(segments[1..]);
      i, j := 0, k + 1;
    } else {
      var i', j' := ScanHintWitness(segments[1..]);
      i, j := i' + 1, j' + 1;
    }
  }

  lemma {:induction false} FirstNonEmptyWitness(segments: seq<string>) returns (j: int)
    requires FirstNonEmpty(segments).Str?
    ensures 0 <= j < |segments| && FirstNonEmpty(segments) == Str(segments[j])
    ensures forall m :: 0 <= m < j ==> segments[m] == ""
  {
    if segments[0] != "" {
      j := 0;
    } else {
      var j' := FirstNonEmptyWitness(segments[1..]);
      j := j' + 1;
    }
  }

  /** A leading non-empty segment other than `attack` does not change the hint. */
  lemma HintPastOtherSegment(segments: seq<string>)
    requires forall i :: 0 <= i < |segments| ==> '/' !in segments[i]
    requires |segments| > 0 && segments[0] != "" && segments[0] != "attack"
    ensures HintOf(segments) == HintOf(segments[1..])
  {
    var tail := NonEmpty(segments[1..]);
    var parts := NonEmpty(segments);
    assert parts == [segments[0]] + tail;
    match IndexOf(tail, "attack")
    case Some(k) =>
      assert IndexOf(parts, "attack") == Some(k + 1);
      if |tail| > k + 1 {
        assert parts[k + 2] == tail[k + 1];
      }
    case None =>
      assert IndexOf(parts, "attack") == None;
  }

  /** Among segments `before ++ [attack, t] ++ after` with no `attack` before,
      the hint is `t`. */
  lemma HintAfterAttack(before: seq<string>, t: string, after: seq<string>)
    requires forall i :: 0 <= i < |before| ==> '/' !in before[i] && before[i] != "attack"
    requires forall i :: 0 <= i < |after| ==> '/' !in after[i]
    requires t != "" && '/' !in t
    ensures var segments := before + (["attack", t] + after);
      (forall i :: 0 <= i < |segments| ==> '/' !in segments[i]) && HintOf(segments) == Str(t)
  {
    var tail := ["attack", t] + after;
    var segments := before + tail;
    assert forall i :: 0 <= i < |segments| ==> '/' !in segments[i] by {
      forall i | 0 <= i < |segments|
        ensures '/' !in segments[i]
      {
        if i >= |before| {
          assert segments[i] == tail[i - |before|];
        }
      }
    }
    var pre := NonEmpty(before);
    var post := ["attack", t] + NonEmpty(after);
    assert NonEmpty(segments) == pre + post by {
      NonEmptyConcat(before, tail);
      NonEmptyAttackTail(t, after);
    }
    assert "attack" !in pre;
    IndexOfConcat(pre, post, "attack");
    assert (pre + post)[|pre| + 1] == t;
  }

  lemma NonEmptyAttackTail(t: string, after: seq<string>)
    requires t != ""
    ensures NonEmpty(["attack", t] + after) == ["attack", t] + NonEmpty(after)
  {
    assert ["attack", t] + after == ["attack"] + ([t] + after);
    NonEmptyCons("attack", [t] + after);
    NonEmptyCons(t, after);
    assert ["attack"] + ([t] + NonEmpty(after)) == ["attack", t] + NonEmpty(after);
  }

  /** A non-empty head segment stays in front. */
  lemma NonEmptyCons(x: string, rest: seq<string>)
    requires x != ""
    ensures NonEmpty([x] + rest) == [x] + NonEmpty(rest)
  {
    assert ([x] + rest)[0] == x && ([x] + rest)[1..] == rest;
  }

  /** A path `.../attack/<t>/...` whose earlier segments are not `attack` hints `t`. */
  lemma InferredFromSegments(before: seq<string>, t: string, after: seq<string>)
    requires forall i :: 0 <= i < |before| ==> '/' !in before[i] && before[i] != "attack"
    requires forall i :: 0 <= i < |after| ==> '/' !in after[i]
    requires t != "" && '/' !in t
    ensures InferredAttackType(Join(before + (["attack", t] + after))) == Str(t)
  {
    HintAfterAttack(before, t, after);
    SplitJoin(before + (["attack", t] + after));
  }

  /** Filtering distributes over concatenation: the non-empty segments keep
      their order and their multiplicity. */
  lemma {:induction false} NonEmptyConcat(a: seq<string>, b: seq<string>)
    ensures NonEmpty(a + b) == NonEmpty(a) + NonEmpty(b)
  {
    if |a| > 0 {
      assert (a + b)[1..] == a[1..] + b;
      NonEmptyConcat(a[1..], b);
    } else {
      assert a + b == b;
    }
  }

  lemma {:induction false} IndexOfConcat(a: seq<string>, b: seq<string>, x: string)
    requires x !in a && x in b
    ensures IndexOf(a + b, x).Some? && IndexOf(a + b, x).value == |a| + IndexOf(b, x).value
  {
    if |a| > 0 {
      assert (a + b)[1..] == a[1..] + b;
      IndexOfConcat(a[1..], b, x);
    } else {
      assert a + b == b;
    }
  }

  lemma AttackPath()
    ensures Join(["", "api", "events", "attack"]) == "/api/events/attack"
  {
    JoinCons("events", ["attack"]);
    assert Join(["events", "attack"]) == "events/attack";
    JoinCons("api", ["events", "attack"]);
    assert Join(["api", "events", "attack"]) == "api/events/attack";
    JoinCons("", ["api", "events", "attack"]);
  }

  lemma KickPath()
    ensures Join(["", "api", "events", "attack", "kick"]) == "/api/events/attack/kick"
  {
    KickPathTail();
    JoinCons("api", ["events", "attack", "kick"]);
    assert Join(["api", "events", "attack", "kick"]) == "api/events/attack/kick";
    JoinCons("", ["api", "events", "attack", "kick"]);
  }

  lemma KickPathTail()
    ensures Join(["events", "attack", "kick"]) == "events/attack/kick"
  {
    JoinCons("attack", ["kick"]);
    assert Join(["attack", "kick"]) == "attack/kick";
    JoinCons("events", ["attack", "kick"]);
  }

  /** `/api/events/attack/kick` hints `kick`. */
  lemma KickPathHint()
    ensures InferredAttackType("/api/events/attack/kick") == Str("kick")
  {
    KickPath();
    assert ["", "api", "events"] + (["attack", "kick"] + []) == ["", "api", "events", "attack", "kick"];
    InferredFromSegments(["", "api", "events"], "kick", []);
  }

  /** `/api/events/attack` has no segment after `attack`, so no hint. */
  lemma BareAttackPathNoHint()
    ensures InferredAttackType("/api/events/attack") == Undefined
  {
    var segments := ["", "api", "events", "attack"];
    AttackPath();
    SplitJoin(segments);
    assert Split("/api/events/attack") == segments;
    BareAttackSegments();
  }

  /** The non-empty segments of `/api/events/attack` end with `attack`. */
  lemma BareAttackSegments()
    ensures NonEmpty(["", "api", "events", "attack"]) == ["api", "events", "attack"]
    ensures IndexOf(["api", "events", "attack"], "attack") == Some(2)
  {
    var segments := ["", "api", "events", "attack"];
    assert segments[1..] == ["api", "events", "attack"];
    assert "api" != "attack" && "events" != "attack";
  }

  /** Empty segments between `attack` and the type are passed over:
      `/attack//kick` hints `kick`. */
  lemma DoubleSlashHint()
    ensures InferredAttackType("/attack//kick") == Str("kick")
  {
    var segments := ["", "attack", "", "kick"];
    DoubleSlashPath();
    SplitJoin(segments);
    assert HintAt(segments, 1, 3);
    ScanHintAt(segments, 1, 3);
  }

  lemma DoubleSlashPath()
    ensures Join(["", "attack", "", "kick"]) == "/attack//kick"
  {
    JoinCons("", ["kick"]);
    assert Join(["", "kick"]) == "/kick";
    JoinCons("attack", ["", "kick"]);
    assert Join(["attack", "", "kick"]) == "attack//kick";
    JoinCons("", ["attack", "", "kick"]);
  }

  /** A trailing slash after `attack` leaves only an empty segment after it:
      `/api/events/attack/` has no hint. */
  lemma TrailingSlashAttackNoHint()
    ensures InferredAttackType("/api/events/attack/") == Undefined
  {
    var segments := ["", "api", "events", "attack", ""];
    TrailingSlashAttackPath();
    SplitJoin(segments);
    assert segments[1..][1..][1..] == ["attack", ""];
    assert FirstNonEmpty([""]) == Undefined by {
      assert [""][1..] == [];
    }
  }

  lemma TrailingSlashAttackPath()
    ensures Join(["", "api", "events", "attack", ""]) == "/api/events/attack/"
  {
    TrailingSlashAttackTail();
    JoinCons("api", ["events", "attack", ""]);
    assert Join(["api", "events", "attack", ""]) == "api/events/attack/";
    JoinCons("", ["api", "events", "attack", ""]);
  }

  lemma TrailingSlashAttackTail()
    ensures Join(["events", "attack", ""]) == "events/attack/"
  {
    JoinCons("attack", [""]);
    assert Join(["attack", ""]) == "attack/";
    JoinCons("events", ["attack", ""]);
  }

  /** A path ending in `/` names the empty event type. */
  lemma TrailingSlashEmptyType(pathname: string)
    requires |pathname| > 0 && pathname[|pathname| - 1] == '/'
    ensures LastSegment(pathname) == ""
  {
  }
}

=== FILE: registry.dfy ===
/**
 The handler registry (src/lib/events.ts, and its duplicate
 src/app/api/events/handlers.ts): a string-keyed table from event type to the
 callback that consumes events of that type. Registering a type again replaces
 its handler; nothing is ever removed.
 */
module Registry {
  import opened Js

  /** How a thrown value is reported: an `Error` contributes its message. */
  datatype Thrown = ErrorObject(message: string) | NonError

  /** What calling a handler does: return `{message, status}` or throw. */
  datatype Outcome = Returned(message: string, status: int) | Threw(thrown: Thrown)

  /** A registered callback, applied to the request body. */
  type Handler = Record -> Outcome

  type Registry = map<string, Handler>

  /** The text reported for a thrown value: `error.message` for an `Error`,
      otherwise a fixed sentence. */
  function ErrorText(t: Thrown): (s: string)
    ensures t.ErrorObject? ==> s == t.message
    ensures t.NonError? ==> s == "An unknown error occurred."
  {
    match t
    case ErrorObject(m) => m
    case NonError => "An unknown error occurred."
  }

  /** The module-level table before any registration. */
  function Empty(): (r: Registry)
    ensures forall t :: Lookup(r, t) == None
  {
    map[]
  }

  /** `registerEventHandler(eventType, handler)`: last write wins. */
  function Register(r: Registry, eventType: string, handler: Handler): (r': Registry)
    ensures Lookup(r', eventType) == Some(handler)
    ensures forall t :: t != eventType ==> Lookup(r', t) == Lookup(r, t)
    ensures r'.Keys == r.Keys + {eventType}
  {
    r[eventType := handler]
  }

  /** `eventHandlers[eventType]` read as a condition: a registered function is
      truthy, an absent key is `undefined`. */
  function Lookup(r: Registry, eventType: string): (h: Option<Handler>)
    ensures h.Some? <==> eventType in r
    ensures h.Some? ==> h.value == r[eventType]
  {
    if eventType in r then Some(r[eventType]) else None
  }

  /** Registration never removes a type: the set of registered types only grows. */
  lemma RegisterOnlyGrows(r: Registry, eventType: string, handler: Handler, t: string)
    requires Lookup(r, t).Some?
    ensures Lookup(Register(r, eventType, handler), t).Some?
  {
  }

  /** Registering twice for one type keeps only the second handler, and is the
      same table as registering the second handler alone. */
  lemma ReRegisterReplaces(r: Registry, eventType: string, first: Handler, second: Handler)
    ensures Register(Register(r, eventType, first), eventType, second) == Register(r, eventType, second)
  {
  }

  /** Registrations for different types commute. */
  lemma RegisterCommutes(r: Registry, t1: string, h1: Handler, t2: string, h2: Handler)
    requires t1 != t2
    ensures Register(Register(r, t1, h1), t2, h2) == Register(Register(r, t2, h2), t1, h1)
  {
  }
}

=== FILE: server.dfy ===
/**
 The server process as a whole: the module-level ledger and handler table,
 and the requests that read or change them. Each request is one of the core
 operations (the three ingestion routes, handler registration, the store's
 snapshot, clear and mark-ignored, and the stats computation).
 */
module Server {
  import opened Js
  import Ledger
  import opened Registry
  import Ingest
  import Stats

  datatype State = State(ledger: seq<Record>, handlers: Registry)

  /** Both tables start empty. */
  function Init(): (s: State)
    ensures s.ledger == [] && s.handlers == Empty()
  {
    State([], Empty())
  }

  datatype Request =
    | PostAttack(payload: Ingest.Payload, pathname: string, id: string, timestamp: string, storeFault: bool)
    | PostDash(payload: Ingest.Payload, id: string, timestamp: string, storeFault: bool)
    | PostGeneric(payload: Ingest.Payload, pathname: string)
    | RegisterHandler(eventType: string, handler: Handler)
    | GetEvents
    | ClearEvents
    | MarkEventIgnored(id: string)
    | GetStats

  datatype Reply =
    | Http(response: Ingest.Response)
    | Events(events: seq<Record>)
    | Found(found: bool)
    | StatsBody(stats: Stats.Stats)
    | Done

  datatype Served = Served(state: State, reply: Reply)

  /** One request against the shared state. */
  function Step(s: State, req: Request): (out: Served)
    ensures req.PostGeneric? || req.GetEvents? || req.GetStats? || req.RegisterHandler? ==>
      out.state.ledger == s.ledger
    ensures !req.RegisterHandler? ==> out.state.handlers == s.handlers
    ensures req.GetEvents? ==> out.reply == Events(s.ledger)
    ensures req.ClearEvents? ==> out.state.ledger == []
    ensures Ledger.Valid(s.ledger) ==> Ledger.Valid(out.state.ledger)
  {
    match req
    case PostAttack(payload, pathname, id, timestamp, fault) =>
      var p := Ingest.PostAttack(s.ledger, s.handlers, payload, pathname, id, timestamp, fault);
      Served(State(p.ledger, s.handlers), Http(p.response))
    case PostDash(payload, id, timestamp, fault) =>
      var p := Ingest.PostDash(s.ledger, s.handlers, payload, id, timestamp, fault);
      Served(State(p.ledger, s.handlers), Http(p.response))
    case PostGeneric(payload, pathname) =>
      Served(s, Http(Ingest.PostGeneric(s.handlers, payload, pathname)))
    case RegisterHandler(t, h) =>
      Served(State(s.ledger, Register(s.handlers, t, h)), Done)
    case GetEvents =>
      Served(s, Events(s.ledger))
    case ClearEvents =>
      Served(State([], s.handlers), Done)
    case MarkEventIgnored(id) =>
      var m := Ledger.MarkIgnored(s.ledger, id);
      Served(State(m.ledger, s.handlers), Found(m.found))
    case GetStats =>
      Served(s, StatsBody(Stats.Compute(s.ledger)))
  }

  /** The state after serving `reqs` in order. */
  function Run(s: State, reqs: seq<Request>): State
    decreases |reqs|
  {
    if |reqs| == 0 then s else Run(Step(s, reqs[0]).state, reqs[1..])
  }

  /** From the initial state, no sequence of requests makes the ledger hold
      more than 100 events. */
  lemma {:induction false} RunKeepsCapacity(s: State, reqs: seq<Request>)
    requires Ledger.Valid(s.ledger)
    ensures Ledger.Valid(Run(s, reqs).ledger)
    decreases |reqs|
  {
    if |reqs| > 0 {
      RunKeepsCapacity(Step(s, reqs[0]).state, reqs[1..]);
    }
  }

  /** Requests that only read, or only touch the handler table, leave the
      ledger as it was, however many are served. */
  lemma {:induction false} ReadOnlyRunKeepsLedger(s: State, reqs: seq<Request>)
    requires forall i :: 0 <= i < |reqs| ==>
      reqs[i].PostGeneric? || reqs[i].GetEvents? || reqs[i].GetStats? || reqs[i].RegisterHandler?
    ensures Run(s, reqs).ledger == s.ledger
    decreases |reqs|
  {
    if |reqs| > 0 {
      ReadOnlyRunKeepsLedger(Step(s, reqs[0]).state, reqs[1..]);
    }
  }

  /** A storing attack or dash post grows the ledger by exactly one event,
      until it is full; a handler's presence or absence makes no difference. */
  lemma PostStoresExactlyOne(s: State, req: Request)
    requires req.PostAttack? || req.PostDash?
    requires !req.storeFault
    ensures |Step(s, req).state.ledger| == if |s.ledger| < Ledger.Capacity then |s.ledger| + 1 else Ledger.Capacity
  {
  }

  /** A handler registered for `attack` or `dash` sees the raw body; with none
      registered the route still answers 200 with `handled: false`. */
  lemma UnhandledPostIsAccepted(s: State, req: Request)
    requires req.PostAttack? || req.PostDash?
    requires (req.PostAttack? ==> "attack" !in s.handlers) && (req.PostDash? ==> "dash" !in s.handlers)
    ensures var reply := Step(s, req).reply;
      reply.Http? && reply.response.status == 200 && reply.response.handled == Some(false)
  {
  }
}

=== FILE: stats.dfy ===
/**
 The statistics endpoint (src/app/api/events/stats/route.ts) as a pure function
 of a ledger snapshot. Records are classified by their fields exactly as the
 route tests them (`===` comparisons); the `ignored` flag is not consulted.
 */
module Stats {
  import opened Js
  import Ledger

  /** `e.type === 'attack'`. */
  predicate IsAttack(r: Record) { Get(r, "type") == Str("attack") }

  /** `e.type === 'dash'`. */
  predicate IsDash(r: Record) { Get(r, "type") == Str("dash") }

  /** An attack with `hit === true`. */
  predicate IsHit(r: Record) { IsAttack(r) && Get(r, "hit") == Bool(true) }

  /** An attack with `hit === false`. */
  predicate IsExplicitMiss(r: Record) { IsAttack(r) && Get(r, "hit") == Bool(false) }

  /** An attack with `typeof hit === 'boolean'`. */
  predicate HasBooleanHit(r: Record) { IsAttack(r) && Get(r, "hit").Bool? }

  /** An attack with `silent === true`: a start record. */
  predicate IsStarted(r: Record) { IsAttack(r) && Get(r, "silent") == Bool(true) }

  /** The JSON body of a successful stats response; `None` stands for `null`. */
  datatype Stats = Stats(
    attackCount: nat,
    dashCount: nat,
    successfulHits: nat,
    attacksWithHit: nat,
    startedCount: nat,
    leftoverStartedMisses: nat,
    realMisses: nat,
    successRate: Option<int>,
    successRateByUserFormula: Option<int>)

  /** `Math.round(h / d * 100)` computed exactly: the integer nearest to 100h/d,
      halves rounding up. */
  function RoundPercent(h: nat, d: nat): (r: int)
    requires d > 0
    ensures r >= 0
    ensures NearestPercent(h, d, r)
  {
    var q := (200 * h + d) / (2 * d);
    assert 200 * h + d == 2 * d * q + (200 * h + d) % (2 * d);
    q
  }

  /** `r` is 100h/d rounded to the nearest integer, halves upwards:
      r - 1/2 <= 100h/d < r + 1/2, cleared of fractions. */
  predicate NearestPercent(h: nat, d: nat, r: int) {
    2 * d * r - d <= 200 * h < 2 * d * r + d
  }

  /** A rounded percentage of a part no larger than the whole lies in [0, 100]. */
  lemma RoundPercentBounded(h: nat, d: nat)
    requires 0 < d && h <= d
    ensures 0 <= RoundPercent(h, d) <= 100
  {
    var r := RoundPercent(h, d);
    MulMonotone(2 * d, r, 100);
  }

  /** Multiplying by a non-negative factor keeps a strict gap of at least that factor. */
  lemma MulMonotone(k: nat, x: int, c: int)
    ensures x > c ==> k * x >= k * c + k
  {
    if x > c {
      var y := x - c - 1;
      assert k * y >= 0;
      assert k * x == k * c + k * y + k;
    }
  }

  function Max0(x: int): nat { if x > 0 then x else 0 }

  function ExplicitMisses(events: seq<Record>): nat { Count(events, IsExplicitMiss) }

  /** The arithmetic part of the stats route: pair hits with silent starts by
      count, then form the two rounded rates, each `null` on a zero denominator. */
  function Reconcile(attackCount: nat, dashCount: nat, successfulHits: nat,
                     explicitMisses: nat, attacksWithHit: nat, startedCount: nat): (s: Stats)
    requires successfulHits <= attackCount
    ensures s.attackCount == attackCount && s.dashCount == dashCount && s.successfulHits == successfulHits
    ensures s.attacksWithHit == attacksWithHit && s.startedCount == startedCount
    ensures s.leftoverStartedMisses == Max0(startedCount - successfulHits)
    ensures s.realMisses == explicitMisses + s.leftoverStartedMisses
    ensures s.successRate == None <==>
      successfulHits == 0 && explicitMisses == 0 && startedCount == 0
    ensures s.successRate.Some? ==> 0 <= s.successRate.value <= 100
    ensures RatesRounded(s)
    ensures s.successRateByUserFormula == None <==> successfulHits == attackCount
    ensures s.successRateByUserFormula.Some? ==> s.successRateByUserFormula.value >= 0
  {
    var leftoverStartedMisses := Max0(startedCount - successfulHits);
    var realMisses := explicitMisses + leftoverStartedMisses;
    var denom := successfulHits + realMisses;
    var userDenom := attackCount - successfulHits;
    assert denom > 0 ==> 0 <= RoundPercent(successfulHits, denom) <= 100 by {
      if denom > 0 {
        RoundPercentBounded(successfulHits, denom);
      }
    }
    Stats(
      attackCount,
      dashCount,
      successfulHits,
      attacksWithHit,
      startedCount,
      leftoverStartedMisses,
      realMisses,
      if denom > 0 then Some(RoundPercent(successfulHits, denom)) else None,
      if userDenom > 0 then Some(RoundPercent(successfulHits, userDenom)) else None)
  }

  /** The body of the stats route's `GET`. */
  function Compute(events: seq<Record>): (s: Stats)
    ensures s.attackCount == Count(events, IsAttack) && s.dashCount == Count(events, IsDash)
    ensures s.successfulHits == Count(events, IsHit) && s.startedCount == Count(events, IsStarted)
    ensures s.attackCount + s.dashCount <= |events|
    ensures s.successfulHits + ExplicitMisses(events) == s.attacksWithHit <= s.attackCount
    ensures s.leftoverStartedMisses == Max0(s.startedCount - s.successfulHits)
    ensures s.realMisses == ExplicitMisses(events) + s.leftoverStartedMisses
    ensures s.successRate == None <==>
      s.successfulHits == 0 && ExplicitMisses(events) == 0 && s.startedCount == 0
    ensures s.successRate.Some? ==> 0 <= s.successRate.value <= 100
    ensures s.successRateByUserFormula == None <==>
      forall i :: 0 <= i < |events| && IsAttack(events[i]) ==> IsHit(events[i])
    ensures s.successRateByUserFormula.Some? ==> s.successRateByUserFormula.value >= 0
  {
    AttackDashDisjoint(events);
    HitsAndMissesPartition(events);
    HitsAreAttacks(events);
    Reconcile(
      Count(events, IsAttack),
      Count(events, IsDash),
      Count(events, IsHit),
      Count(events, IsExplicitMiss),
      Count(events, HasBooleanHit),
      Count(events, IsStarted))
  }

  /** Each non-null rate is the rounded percentage of successful hits: among
      all decided attacks (hits plus real misses) for `successRate`, and
      relative to the attacks that were not hits for the user formula. */
  ghost predicate RatesRounded(s: Stats) {
    && (s.successRate.Some? ==>
          s.successfulHits + s.realMisses > 0 &&
          s.successRate.value == RoundPercent(s.successfulHits, s.successfulHits + s.realMisses))
    && (s.successRateByUserFormula.Some? ==>
          s.attackCount > s.successfulHits &&
          s.successRateByUserFormula.value == RoundPercent(s.successfulHits, s.attackCount - s.successfulHits))
  }

  /** The rates the route reports are the rounded percentages of its own counts. */
  lemma ComputeRates(events: seq<Record>)
    ensures RatesRounded(Compute(events))
  {
    var a, da, h := Count(events, IsAttack), Count(events, IsDash), Count(events, IsHit);
    var em, bh, st := Count(events, IsExplicitMiss), Count(events, HasBooleanHit), Count(events, IsStarted);
    HitsAreAttacks(events);
    assert Compute(events) == Reconcile(a, da, h, em, bh, st);
  }

  /** No record is both an attack and a dash. */
  lemma {:induction false} AttackDashDisjoint(events: seq<Record>)
    ensures Count(events, IsAttack) + Count(events, IsDash) <= |events|
  {
    if |events| > 0 {
      AttackDashDisjoint(events[..|events| - 1]);
    }
  }

  /** Attacks with a boolean `hit` are exactly the hits plus the explicit misses,
      and they are among the attacks. */
  lemma {:induction false} HitsAndMissesPartition(events: seq<Record>)
    ensures Count(events, IsHit) + Count(events, IsExplicitMiss) == Count(events, HasBooleanHit)
    ensures Count(events, HasBooleanHit) <= Count(events, IsAttack)
  {
    if |events| > 0 {
      HitsAndMissesPartition(events[..|events| - 1]);
    }
  }

  /** There are as many hits as attacks exactly when every attack is a hit. */
  lemma {:induction false} HitsAreAttacks(events: seq<Record>)
    ensures Count(events, IsHit) <= Count(events, IsAttack)
    ensures Count(events, IsHit) == Count(events, IsAttack) <==>
      forall i :: 0 <= i < |events| && IsAttack(events[i]) ==> IsHit(events[i])
  {
    if |events| > 0 {
      var init := events[..|events| - 1];
      HitsAreAttacks(init);
      assert forall i :: 0 <= i < |init| ==> init[i] == events[i];
    }
  }

  /** Statistics depend only on `type`, `hit` and `silent`. */
  predicate SameClassification(a: Record, b: Record) {
    Get(a, "type") == Get(b, "type") && Get(a, "hit") == Get(b, "hit") && Get(a, "silent") == Get(b, "silent")
  }

  lemma SameClassificationSameStats(a: seq<Record>, b: seq<Record>)
    requires |a| == |b|
    requires forall i :: 0 <= i < |a| ==> SameClassification(a[i], b[i])
    ensures Compute(a) == Compute(b)
  {
    CountPointwise(a, b, IsAttack);
    CountPointwise(a, b, IsDash);
    CountPointwise(a, b, IsHit);
    CountPointwise(a, b, IsExplicitMiss);
    CountPointwise(a, b, HasBooleanHit);
    CountPointwise(a, b, IsStarted);
  }

  /** Marking an event ignored changes no statistic: the route does not filter
      on the flag. */
  lemma MarkIgnoredKeepsStats(l: seq<Record>, id: string)
    ensures Compute(Ledger.MarkIgnored(l, id).ledger) == Compute(l)
  {
    var l' := Ledger.MarkIgnored(l, id).ledger;
    forall i | 0 <= i < |l|
      ensures SameClassification(l'[i], l[i])
    {
      assert l'[i] == l[i] || l'[i] == Ledger.Ignore(l[i]);
    }
    SameClassificationSameStats(l', l);
  }

  /** Two silent starts, one hit and one explicit miss: the unmatched start
      counts as a miss, giving a success rate of 33. */
  lemma ReconciliationExample(started: Record, hit: Record, miss: Record)
    requires started == map["type" := Str("attack"), "silent" := Bool(true)]
    requires hit == map["type" := Str("attack"), "silent" := Bool(false), "hit" := Bool(true)]
    requires miss == map["type" := Str("attack"), "silent" := Bool(false), "hit" := Bool(false)]
    ensures var s := Compute([started, started, hit, miss]);
      s.startedCount == 2 && s.successfulHits == 1 && s.leftoverStartedMisses == 1
      && s.realMisses == 2 && s.successRate == Some(33)
  {
    var l := [started, started, hit, miss];
    ExampleCounts(started, hit, miss);
    OneInThree();
    var s := Compute(l);
    assert s.successfulHits == 1 && s.startedCount == 2 && ExplicitMisses(l) == 1;
    assert s.realMisses == 2;
    assert s.successRate.Some?;
  }

  lemma ExampleCounts(started: Record, hit: Record, miss: Record)
    requires started == map["type" := Str("attack"), "silent" := Bool(true)]
    requires hit == map["type" := Str("attack"), "silent" := Bool(false), "hit" := Bool(true)]
    requires miss == map["type" := Str("attack"), "silent" := Bool(false), "hit" := Bool(false)]
    ensures var l := [started, started, hit, miss];
      Count(l, IsStarted) == 2 && Count(l, IsHit) == 1 && Count(l, IsExplicitMiss) == 1
  {
    assert IsStarted(started) && !IsStarted(hit) && !IsStarted(miss);
    assert !IsHit(started) && IsHit(hit) && !IsHit(miss);
    assert !IsExplicitMiss(started) && !IsExplicitMiss(hit) && IsExplicitMiss(miss);
    Count4(started, started, hit, miss, IsStarted);
    Count4(started, started, hit, miss, IsHit);
    Count4(started, started, hit, miss, IsExplicitMiss);
  }

  function Indicator(b: bool): nat { if b then 1 else 0 }

  lemma Count4(a: Record, b: Record, c: Record, d: Record, p: Record -> bool)
    ensures Count([a, b, c, d], p) == Indicator(p(a)) + Indicator(p(b)) + Indicator(p(c)) + Indicator(p(d))
  {
    assert [a, b, c, d][..3] == [a, b, c];
    assert Count([a, b, c, d], p) == Count([a, b, c], p) + Indicator(p(d));
    assert [a, b, c][..2] == [a, b];
    assert Count([a, b, c], p) == Count([a, b], p) + Indicator(p(c));
    assert [a, b][..1] == [a];
    assert Count([a, b], p) == Count([a], p) + Indicator(p(b));
    assert [a][..0] == [];
    assert Count([a], p) == Indicator(p(a));
  }

  lemma OneInThree()
    ensures RoundPercent(1, 3) == 33
  {
    assert (200 * 1 + 3) / (2 * 3) == 33;
  }

  /** `n` copies of one record. */
  function Repeat(r: Record, n: nat): (l: seq<Record>)
    ensures |l| == n
    ensures forall i :: 0 <= i < n ==> l[i] == r
  {
    if n == 0 then [] else Repeat(r, n - 1) + [r]
  }

  lemma {:induction false} CountRepeat(r: Record, n: nat, p: Record -> bool)
    ensures Count(Repeat(r, n), p) == if p(r) then n else 0
  {
    if n > 0 {
      assert Repeat(r, n)[..n - 1] == Repeat(r, n - 1);
      CountRepeat(r, n - 1, p);
    }
  }

  /** Seven hits among ten attacks give a user-formula rate of 233: the formula
      divides by the non-hits, so it is not clamped to 100. */
  lemma UserFormulaExceedsHundred(hit: Record, miss: Record)
    requires hit == map["type" := Str("attack"), "hit" := Bool(true)]
    requires miss == map["type" := Str("attack"), "hit" := Bool(false)]
    ensures var s := Compute(Repeat(hit, 7) + Repeat(miss, 3));
      s.attackCount == 10 && s.successfulHits == 7 && s.successRateByUserFormula == Some(233)
  {
    var hits, misses := Repeat(hit, 7), Repeat(miss, 3);
    CountConcat(hits, misses, IsAttack);
    CountConcat(hits, misses, IsHit);
    CountRepeat(hit, 7, IsAttack);
    CountRepeat(miss, 3, IsAttack);
    CountRepeat(hit, 7, IsHit);
    CountRepeat(miss, 3, IsHit);
    assert Count(hits + misses, IsAttack) == 10;
    assert Count(hits + misses, IsHit) == 7;
    assert RoundPercent(7, 3) == 233;
  }

  /** With no attacks both rates are null, never zero. */
  lemma NoAttacksNoRates(events: seq<Record>)
    requires forall i :: 0 <= i < |events| ==> !IsAttack(events[i])
    ensures Compute(events).successRate == None
    ensures Compute(events).successRateByUserFormula == None
  {
  }
}
